=== FILE: README.md ===
# Messenger server core in Dafny

This project models the coordination core of the messenger's server
(`server.js`). The core is the WebSocket dispatcher, which keeps:

- the connection registry (`wsClients`);
- the one-to-one call table (`activeCalls`);
- the persisted group-call rosters;
- the routing of chat messages, with the experience counter;
- the group membership endpoints (leave, kick, admin).

Every handler is a pure function from a state and an input to a
`Transition`: the next state plus the frames it sends, in order. `Reply(ev)` is
written to the socket the frame came from. `Push(u, ev)` goes through the
registry to user `u`, and it only appears when `u` is *reachable*: their
registry entry holds a socket that is still open. A socket enters the registry
only through `auth`, which also binds it in `conns`, and it leaves `conns` when
it closes, so "open" is modelled as "bound in `conns`" (`Model.Live`).
Each connection is a new `ws` object, and a closed one emits no further
`message` events. The state therefore records the closed sockets, and the
dispatcher ignores any input on them, so a closed socket id is never bound
again (`Server.StepKeepsClosedUnbound`).
Fresh ids (`genId`) and the clock (`Date.now`) are parameters.

- `OrderedMap` (ordered_map.dfy) models a JavaScript `Map` with insertion order,
  as an association list. `wsClients` and `activeCalls` use it, because their
  iteration order fixes the order of the `user_offline` broadcast and of the
  close handler's sweep over calls.
- `Model` (state.dfy) holds:
  - the state record. The per-socket closure variable `userId` becomes
    `conns: map<SocketId, UserId>`, and the sockets whose close event has
    fired are kept in `closed`;
  - the events;
  - the delivery helpers `sendTo`, `broadcast` and the member loop;
  - the roster filters.
- `Registry`: `auth` and `close`.
- `Router`: `send_message`.
- `Calls`: `start_call`, `accept_call`, `end_call` and the `rtc_*` relays.
- `GroupCalls`: `start_group_call`, `join_group_call`, `leave_group_call` and the
  `group_rtc_*` relays.
- `Groups`: `POST /api/groups/:id/leave`, `/kick` and `/admin`.
- `Server`:
  - the dispatcher (`Step` for socket input, `Serve` for group requests);
  - the state invariant `Valid`;
  - the proof that every handler preserves `Valid`. `Valid` covers these facts:
    - registry keys are distinct;
    - call ids are distinct and match their records;
    - every stored group-call roster is non-empty, lists nobody twice and
      belongs to its group;
    - every group's owner is one of its members, listed once.

## Where the code departs from the intended behaviour (the model follows the code)

- **Owner's admin rights.** A group owner is meant to be always privileged.
  The admin endpoint, however, lets the owner revoke their own admin
  rights (server.js:548-558), and kick only checks the `admins` list
  (server.js:532). After that, every kick by the owner gets 403.
  `Groups.OwnerDemotionRevokesKick` states this.
- **Ending a call.** Ending a call is meant to notify exactly the
  counterpart. `end_call` does not check that the requester is on the call:
  anyone who knows the id ends it, and then only the caller is told
  (server.js:1427-1436). `Calls.OutsiderEndsCall` states this.
- **Joining a group call.** `join_group_call` needs only an existing call and
  group, not group membership (server.js:1307-1314). `group_rtc_*` frames are
  relayed even from a socket that never authenticated; the `from` field is then
  `null`, the initial value of the socket's `userId` (server.js:1188, 1360).
- **Closing a socket.** `close` deletes the registry entry by user id
  (server.js:1530). Closing a socket that a newer `auth` superseded therefore
  also unregisters the user, although the newer socket is still open.
  `Registry.ReauthRebinds` and `Registry.ClosingOneOfTwoSocketsUnregisters`
  state the two halves.
- **Stale registry entries.** `auth` on a socket that is already bound to
  another user moves the socket's `userId` but leaves the earlier user's entry
  pointing at that socket (server.js:1198-1201). Until the socket closes,
  frames for the earlier user are written to it. When it closes, only the new
  user's entry is deleted (server.js:1530). The earlier user then stays in
  `wsClients` on a closed socket. Every delivery to them is skipped by the
  `readyState` test (server.js:1168, 1173), but `start_call` still passes its
  `wsClients.has` guard (server.js:1375) and answers `call_started` without
  any `incoming_call` reaching anyone. `Registry.SocketReusedLeavesStaleEntry`
  states this.
- **Exceptions after side effects.** Some handlers throw part-way; the
  dispatcher's `try` swallows the exception after earlier effects have happened.
  The model keeps those partial effects:
  - a private `send_message` from a user with no user record appends the
    message, then stops before the xp update and the fan-out;
  - a `start_call` from such a user stores the call and replies
    `call_started`, but sends no `incoming_call`.

## Model

| member | source | states |
|---|---|---|
| OrderedMap.Get | server.js:1406 | `Map.get` finds a value exactly when the key is present, the value is stored under that key, and with distinct keys it is the value of the key's one entry |
| OrderedMap.Set | server.js:1163-1164 | `Map.set`: the key now maps to the value, every other key keeps its lookup, the key set gains the key, the length grows by one exactly when the key is new, and distinct keys stay distinct |
| OrderedMap.SetAbsentAppends | server.js:1381-1387 | setting a key that is not present appends its entry after all existing entries |
| OrderedMap.SetInPlace | server.js:1201 | setting a present key replaces its entry at the same position and leaves every other entry where it was |
| OrderedMap.Delete | server.js:1163-1164 | `Map.delete`: the key is gone, every other key keeps its lookup, a missing key leaves the list unchanged, and a present key shortens it by one |
| OrderedMap.DeleteAfterSet | server.js:1163-1164 | deleting a key right after setting it leaves what deleting it from the original map would |
| Model.SendToAgreesWithBroadcast | server.js:1166-1178 | `sendTo(u)` reaches `u` exactly as many times as an unrestricted `broadcast` over the same entries does: once when `u` has an entry, never otherwise |
| Model.Broadcast | server.js:1166-1169 | `broadcast` reaches every user of the given registry entries except the excluded one, and only them, each at most once |
| Model.Live | server.js:1168 | the open entries are exactly the registry entries whose socket is still bound |
| Model.LiveKeys | server.js:1168 | the open entries name no user the registry lacks, and keep registry keys distinct |
| Model.LiveIsGetThenOpen | server.js:1171-1176 | with distinct keys, a user has an open entry exactly when `wsClients.get` finds a socket for them and that socket is open, the test `sendTo` makes |
| Model.ReachableIsRegistered | server.js:1375 | whoever is reachable passes the `wsClients.has` test |
| Model.Notify | server.js:1223-1228 | a member loop sends the event only to members with an entry among those given, as many times as the member is listed and never to anyone else |
| Model.RosterView | server.js:1294 | the profile list holds exactly the participants that have a user record, never more entries than the roster |
| Model.Without | server.js:1336 | `filter(id => id !== u)` removes every occurrence of `u` and keeps every other element with its multiplicity |
| Model.WithoutAppended | server.js:1311-1312 | filtering out a user who was just pushed onto a list without them gives back the original list |
| Registry.Auth | server.js:1195-1204 | an unknown token gets the error and changes nothing; otherwise the socket is bound, the user is registered on it (last bind wins) and marked online, `auth_success` comes first, and every other user is told `user_online` exactly when their own socket is open afterwards, which includes everyone reachable before |
| Registry.Close | server.js:1526-1542 | the socket is marked closed; an unbound socket changes nothing else and sends nothing; otherwise the user is unregistered and marked offline, every user still reachable afterwards is told `user_offline`, nothing but those `user_offline` frames and `call_ended` frames is sent, and exactly the calls involving the user are gone |
| Registry.CloseNotifiesOfflineOnce | server.js:1531 | with distinct registry keys, each user reachable after the close gets exactly one `user_offline`, and nobody else gets one |
| Registry.CloseEndsEachCallOnce | server.js:1533-1540 | every call of the departing user produces exactly one `call_ended` to its other party when that party is still reachable once the socket is closed, and none otherwise |
| Registry.AuthThenCloseRestoresRegistry | server.js:1195-1204 | `close` on the socket a previously unregistered user just authenticated gives back the registry and socket bindings from before `auth`; the user's record ends offline, stamped with the auth time |
| Registry.ReauthRebinds | server.js:1198-1201 | a second `auth` of the same session on another socket moves the registry entry to the new socket and leaves both sockets bound to the user |
| Registry.ClosingOneOfTwoSocketsUnregisters | server.js:1527-1530 | closing either of two sockets bound to one user unregisters the user while the other socket stays bound |
| Registry.SocketReusedLeavesStaleEntry | server.js:1527-1530 | after one socket authenticates as `a`, then as `b`, then closes, `a` is still registered on that socket but no longer reachable |
| Router.Resolve | server.js:1212-1234 | a group with the id takes precedence and its membership alone decides; otherwise the private chat's participants decide |
| Router.AwardXp | server.js:1240-1241 | the counter is incremented; on reaching `level × 100` the level rises to one more than the stored level (1 if the stored level is 0), the counter resets and the balance grows by ten times the new level; nothing else changes |
| Router.Append | server.js:1216-1218 | the conversation's history grows by the message at the end, earlier messages and other conversations are unchanged |
| Router.SendMessage | server.js:1207-1257 | an unbound or non-member sender changes nothing; otherwise the message from the sender is appended; a group message goes to every reachable member; a private message credits xp (level-up reply first) and goes to every reachable participant |
| Router.BelowThresholdOnlyCounts | server.js:1240-1241 | while below the threshold, `n` messages only add `n` to the counter |
| Router.LevelUpAfterLevelTimesHundred | server.js:1240-1241 | from counter 0 at level L, no level-up happens before the `L × 100`-th message, and that message raises the level to L + 1, resets the counter and grants `(L + 1) × 10` |
| Router.SendMessageKeepsChronology | server.js:1236-1238 | appending with a clock that has not gone back keeps the history ordered by creation time |
| Router.SendAppendsOne | server.js:1212-1238 | an admitted message lands last in its history, and the routing of the next message is unchanged |
| Router.SendTwiceAppendsInOrder | server.js:1236-1238 | two admitted messages are stored in the order sent, after everything stored before |
| Calls.StartCall | server.js:1365-1402 | an unknown target or a target without a registry entry gets `call_error` with the calls unchanged; otherwise exactly one call from the caller to the target is stored as ringing, `call_started` is replied, and the target is pushed `incoming_call` exactly when reachable |
| Calls.AcceptCall | server.js:1404-1421 | only the callee of an existing call can accept; anyone else gets `call_error` with the calls unchanged; on success the status becomes connected and only the caller is told |
| Calls.EndCall | server.js:1423-1439 | an existing call is deleted and its other side alone is told once; an unknown id changes nothing and sends nothing |
| Calls.Relay | server.js:1442-1487 | signalling changes no state and is forwarded, with the sender attached, only to the other side of an existing call |
| Calls.EndCallsOf | server.js:1534-1540 | the sweep keeps exactly the calls not involving the user, and sends only `call_ended` frames, each to a counterpart of a removed call that has an entry among those given |
| Calls.EndCallsOfNotifiesOnce | server.js:1534-1540 | with distinct call ids, each removed call's counterpart gets exactly one `call_ended` when it has an entry among those given, and none otherwise |
| Calls.StartThenAccept | server.js:1380-1418 | the callee can accept the call just placed; it becomes connected and only the caller hears of it |
| Calls.EndCallTwiceIsNoOp | server.js:1425-1438 | ending an already ended call is a silent no-op |
| Calls.OutsiderEndsCall | server.js:1427-1436 | a requester on neither side ends the call; the callee is never told |
| GroupCalls.Announce | server.js:1286-1297 | every reachable member gets one frame per listing, `group_call_started` for the starter and `incoming_group_call` for everyone else |
| GroupCalls.Enter | server.js:1280-1282 | a user joins the roster at the end only when absent; the roster then contains them and no duplicates appear |
| GroupCalls.StartGroupCall | server.js:1260-1300 | non-members get `call_error`; otherwise a new roster `[u]` is created or `u` enters the existing one, and every reachable member is told with the current roster |
| GroupCalls.JoinGroupCall | server.js:1302-1327 | a missing call or group gets `call_error`; otherwise the joiner enters the roster without duplication and every reachable member gets `group_call_updated` |
| GroupCalls.LeaveGroupCall | server.js:1329-1354 | the leaver is removed; the record is deleted exactly when the roster becomes empty, and then `group_call_ended` replaces `group_call_updated` |
| GroupCalls.GroupRelay | server.js:1356-1362 | group signalling changes no state and goes only to the named target when reachable |
| GroupCalls.JoinAppendsNewcomer | server.js:1311-1314 | a newcomer's join appends them to the end of the roster |
| GroupCalls.LeaveKeepsOthers | server.js:1336-1340 | a leave that keeps someone stores the filtered roster |
| GroupCalls.LeaveUndoesAppend | server.js:1336-1340 | leaving a call one was just appended to restores the previous state |
| GroupCalls.JoinThenLeaveRestores | server.js:1302-1340 | join followed by leave of a newcomer leaves the state as it was |
| GroupCalls.StartCreatesRoster | server.js:1270-1279 | the first start creates a roster holding just the starter |
| GroupCalls.LeaveLastEndsCall | server.js:1338-1353 | the last leave destroys the record and every reachable member gets `group_call_ended` |
| GroupCalls.JoinOnto | server.js:1311-1314 | joining a stored roster that lacks the joiner appends them |
| GroupCalls.LeaveFrom | server.js:1336-1340 | leaving a stored roster that keeps someone stores the filtered roster |
| GroupCalls.SecondJoins | server.js:1311-1314 | a second user joining `[x]` gives `[x, y]` |
| GroupCalls.ThirdJoins | server.js:1311-1314 | a third user joining `[x, y]` gives `[x, y, z]` |
| GroupCalls.FirstLeaves | server.js:1336-1340 | when the first participant leaves, the rest stay in order |
| GroupCalls.FirstOfThreeLeaves | server.js:1336-1340 | `x` leaving `[x, y, z]` gives `[y, z]` |
| GroupCalls.FirstOfTwoLeaves | server.js:1336-1340 | `y` leaving `[y, z]` gives `[z]` |
| GroupCalls.LastLeaveRestores | server.js:1336-1353 | the last participant of a call that did not exist before leaves the state as it was before the call, and only `group_call_ended` is sent |
| GroupCalls.ThreeMemberCallScenario | server.js:1260-1354 | x starts and y, z join, giving rosters `[x]`, `[x, y]` and `[x, y, z]`; then x, y, z leave, giving `[y, z]` and `[z]`; the last leave restores the original state and sends only `group_call_ended` |
| Groups.Remove | server.js:499-500 | the user is filtered out of both members and admins, and everybody else keeps their multiplicity |
| Groups.LeaveGroup | server.js:492-503 | 401 without a session, 404 for an unknown group, 400 for the owner; otherwise 200 and the leaver is removed from members and admins, nobody else is touched |
| Groups.Kick | server.js:527-541 | 401, 404, 403 for a non-admin and 400 for the owner as target; otherwise 200 and the target is removed from members and admins, nobody else is touched |
| Groups.AbsentAdminsActAsOwnerOnly | server.js:553 | on a group record without an admin list, the admin endpoint answers and acts exactly as on the same group whose list holds the owner alone |
| Groups.SetAdmin | server.js:543-561 | 401, 404, 403 for anyone but the owner and 400 for a non-member target; otherwise 200 and the target is an admin exactly when granted, with nobody else's rights changed and no duplicate added |
| Groups.GrantThenRevokeRestores | server.js:554-557 | granting admin rights to a member who lacks them and revoking them again restores the state |
| Groups.OwnerDemotionRevokesKick | server.js:532-558 | the owner can revoke their own rights and remains the owner, but every kick they attempt afterwards gets 403 |
| Groups.KickedMemberCannotKick | server.js:532-538 | a kick request from a member, received after that member was kicked, is refused with 403 |
| Server.StoreRosterPreservesValid | server.js:1270-1282 | storing a well-formed roster keeps the invariant |
| Server.AuthPreservesValid | server.js:1195-1204 | `auth` keeps the invariant |
| Server.ClosePreservesValid | server.js:1526-1542 | `close` keeps the invariant |
| Server.SendMessagePreservesValid | server.js:1207-1257 | `send_message` keeps the invariant |
| Server.StartGroupCallPreservesValid | server.js:1260-1300 | `start_group_call` keeps every roster non-empty and duplicate-free |
| Server.JoinGroupCallPreservesValid | server.js:1302-1327 | `join_group_call` keeps every roster duplicate-free |
| Server.LeaveGroupCallPreservesValid | server.js:1329-1354 | `leave_group_call` never leaves an empty roster behind |
| Server.StartCallPreservesValid | server.js:1365-1402 | `start_call` keeps call ids distinct and matching their records |
| Server.AcceptCallPreservesValid | server.js:1404-1421 | `accept_call` keeps call ids distinct and matching their records |
| Server.EndCallPreservesValid | server.js:1423-1439 | `end_call` keeps the invariant |
| Server.StepPreservesValid | server.js:1187-1542 | every socket input keeps the invariant |
| Server.StepKeepsClosedUnbound | server.js:1526-1531 | whatever input arrives, a closed socket stays closed and is never bound to a user again, so "bound" keeps meaning "open" |
| Server.ReusedSocketStaysClosed | server.js:1187-1188 | after a socket authenticates as `a`, then as `b`, then closes, an `auth` arriving on its id changes nothing, and `a` stays registered but unreachable |
| Server.FilterKeepsOthers | server.js:537-538 | filtering a non-owner out of a duplicate-free member list keeps the owner and stays duplicate-free |
| Server.LeaveGroupPreservesValid | server.js:492-503 | leaving keeps every owner a member |
| Server.KickPreservesValid | server.js:527-541 | kicking keeps every owner a member |
| Server.SetAdminPreservesValid | server.js:543-561 | the admin endpoint keeps the invariant |
| Server.ServePreservesValid | server.js:492-561 | no group request can remove an owner from their group |

## Left out

- Groups.Kick: modelled as one atomic step. The handler checks the admin
  rights (server.js:532), then awaits the request body (server.js:534) before
  filtering (server.js:537-538). Another request may change the group in
  between, and the model does not cover such interleavings.
- Groups.SetAdmin: modelled as one atomic step, for the same reason. The owner
  check (server.js:548) comes before the awaited body (server.js:550), and the
  list is changed afterwards (server.js:551-557).
- Registry.Auth: ids naming `Object.prototype` properties (`constructor`,
  `__proto__`, `toString`, ...) are treated as absent. The source looks up
  sessions, users, groups and group calls in plain objects, which find such
  names. With token `constructor`, `db.sessions[token]` (server.js:1196) finds
  a function whose `userId` is `undefined`. The socket is then registered under
  `undefined`, `auth_success` carries `null` and `user_online` is broadcast
  (server.js:1198-1203). The model answers with the invalid-token error.
  Because `close` tests `if (userId)` (server.js:1527), that entry is never
  removed.
- Calls.StartCall: for a target named after an `Object.prototype` property,
  `db.users[msg.to]` (server.js:1368) finds the inherited value, and the source
  answers "not online" (server.js:1375-1376). The model answers "user not
  found".
- GroupCalls.JoinGroupCall: for a group id named after an `Object.prototype`
  property, the existence test (server.js:1307) passes on the inherited
  values, and `participants.includes` (server.js:1311) throws, so nothing is
  sent. The model replies `call_error`.
- Groups.LeaveGroup: for a group id named after an `Object.prototype` property,
  the filter at server.js:499 throws and no response is written. The model
  answers 404.
- Groups.Kick: for a group id named after an `Object.prototype` property, the
  admin test (server.js:532) answers 403. The model answers 404.
- Groups.SetAdmin: for a group id named after an `Object.prototype` property,
  the owner test (server.js:548) answers 403. The model answers 404.
- The empty user id. Every handler tests `if (!userId)` (server.js:1208,
  1527 and the others), so a session whose user id is the empty string leaves
  the socket unauthenticated for every later frame, and its `close` does
  nothing. The model treats that socket as bound like any other.
- File persistence (`loadDB`, `saveDB` and its timers): the state is kept in
  memory; a save has no observable effect on the modelled state.
- The delayed bot reply after a private message (server.js:1247-1256). It
  depends on `setTimeout`, `Math.random` and text matching.
- The actual socket write and JSON encoding. Of `readyState`, only OPEN and
  CLOSED are modelled: a socket is open from its first `auth` until its close
  event. The CLOSING state between `ws.close()` and that event is not.
- Sockets that never authenticated are open in the source but are not in
  `conns`. They never enter the registry, so the difference reaches no
  delivery.
- Profile views inside frames: `fromUser` in `new_message` is not carried. The
  roster lists carry participant ids, limited to those with a user record,
  instead of full profiles. `auth_success` carries the stored user record
  rather than its `safeUser` projection.
- Ids and time: `genId` and `Date.now` are parameters of the handlers that need
  them.
- `channel_message`, `typing` and `read` frames, `POST /api/groups/:id/members`,
  the other HTTP endpoints, the admin console and the economy features. These
  lie outside the coordination core.
- Frames that fail to parse and unknown frame types: the dispatcher ignores
  them, and the `Input` type has no constructor for them.
- `user.level` is taken to be a number, as it is when an account is created
  (server.js:235). A record missing the field is not modelled. For such a record
  JavaScript compares `NaN`, so the level-up never fires.
- Missing `xp` and `balance` fields are represented by 0, which is how the
  handler reads them.

=== FILE: calls.dfy ===
/**
 One-to-one calls: the `activeCalls` table moves a call from `ringing` to
 `connected` and deletes it when either side ends it; the WebRTC signalling
 frames are relayed to the other side of the call.
 */
module Calls {
  import opened Wrappers
  import OrderedMap
  import opened Model

  /** `call.from === u || call.to === u`. */
  predicate Involves(c: Call, u: UserId) {
    c.from == u || c.to == u
  }

  /** The side of the call that is not `u` (`call.from === u ? call.to : call.from`);
      for a requester who is on neither side this is the caller. */
  function Counterpart(c: Call, u: UserId): UserId {
    if c.from == u then c.to else c.from
  }

  /** `start_call`: the target must have a user record and a registry entry
      (`wsClients.has`); `incoming_call` reaches them only if that entry's socket
      is still open. */
  function StartCall(st: State, sock: SocketId, to: UserId, callId: CallId, now: int): (t: Transition)
    ensures sock !in st.conns ==> t == Transition(st, [])
    ensures sock in st.conns && to !in st.users ==>
      t == Transition(st, [Reply(CallError(UserNotFound))])
    ensures sock in st.conns && to in st.users && !Registered(st, to) ==>
      t == Transition(st, [Reply(CallError(UserNotOnline))])
    ensures sock in st.conns && to in st.users && Registered(st, to) ==>
      var caller := st.conns[sock];
      && t.next == st.(calls := t.next.calls)
      && OrderedMap.Get(t.next.calls, callId) == Some(Call(callId, caller, to, Ringing, now))
      && (forall id :: id != callId ==> OrderedMap.Get(t.next.calls, id) == OrderedMap.Get(st.calls, id))
      && (callId !in OrderedMap.Keys(st.calls) ==> |t.next.calls| == |st.calls| + 1)
      && (caller in st.users ==>
            t.out == [Reply(CallStarted(callId))] +
                     if Reachable(st, to) then [Push(to, IncomingCall(callId, caller, st.users[caller].name, st.users[caller].avatar))]
                     else [])
      && (caller !in st.users ==> t.out == [Reply(CallStarted(callId))])
  {
    if sock !in st.conns then Transition(st, [])
    else
      var caller := st.conns[sock];
      if to !in st.users then Transition(st, [Reply(CallError(UserNotFound))])
      else if !Registered(st, to) then Transition(st, [Reply(CallError(UserNotOnline))])
      else
        var next := st.(calls := OrderedMap.Set(st.calls, callId, Call(callId, caller, to, Ringing, now)));
        var started := [Reply(CallStarted(callId))];
        if caller in st.users then
          var user := st.users[caller];
          Transition(next, started + SendTo(Live(next.clients, next.conns), to, IncomingCall(callId, caller, user.name, user.avatar)))
        else
          // Reading the caller's name throws, so the handler stops after `call_started`.
          Transition(next, started)
  }

  /** `accept_call`: only the callee may accept; the caller alone is told. */
  function AcceptCall(st: State, sock: SocketId, callId: CallId): (t: Transition)
    ensures sock !in st.conns ==> t == Transition(st, [])
    ensures sock in st.conns ==>
      var c := OrderedMap.Get(st.calls, callId);
      && (c.None? || c.value.to != st.conns[sock] ==>
            t == Transition(st, [Reply(CallError(CallNotFound))]))
      && (c.Some? && c.value.to == st.conns[sock] ==>
            && t.next == st.(calls := t.next.calls)
            && OrderedMap.Get(t.next.calls, callId) == Some(c.value.(status := Connected))
            && (forall id :: id != callId ==> OrderedMap.Get(t.next.calls, id) == OrderedMap.Get(st.calls, id))
            && |t.next.calls| == |st.calls|
            && t.out == if Reachable(st, c.value.from) then [Push(c.value.from, CallAccepted(callId))] else [])
  {
    if sock !in st.conns then Transition(st, [])
    else
      match OrderedMap.Get(st.calls, callId)
      case None => Transition(st, [Reply(CallError(CallNotFound))])
      case Some(c) =>
        if c.to != st.conns[sock] then Transition(st, [Reply(CallError(CallNotFound))])
        else
          var next := st.(calls := OrderedMap.Set(st.calls, callId, c.(status := Connected)));
          Transition(next, SendTo(Live(st.clients, st.conns), c.from, CallAccepted(callId)))
  }

  /** `end_call`: ends the call in any state; the other side is told once.
      Ending an unknown call does nothing. */
  function EndCall(st: State, sock: SocketId, callId: CallId): (t: Transition)
    ensures sock !in st.conns ==> t == Transition(st, [])
    ensures sock in st.conns && callId !in OrderedMap.Keys(st.calls) ==> t == Transition(st, [])
    ensures sock in st.conns && callId in OrderedMap.Keys(st.calls) ==>
      var c := OrderedMap.Get(st.calls, callId).value;
      var other := Counterpart(c, st.conns[sock]);
      && t.next == st.(calls := t.next.calls)
      && callId !in OrderedMap.Keys(t.next.calls)
      && (forall id :: id != callId ==> OrderedMap.Get(t.next.calls, id) == OrderedMap.Get(st.calls, id))
      && t.out == if Reachable(st, other) then [Push(other, CallEnded(callId))] else []
  {
    if sock !in st.conns then Transition(st, [])
    else
      match OrderedMap.Get(st.calls, callId)
      case None => Transition(st, [])
      case Some(c) =>
        var other := Counterpart(c, st.conns[sock]);
        Transition(st.(calls := OrderedMap.Delete(st.calls, callId)), SendTo(Live(st.clients, st.conns), other, CallEnded(callId)))
  }

  /** `rtc_offer` / `rtc_answer` / `rtc_ice`: forwarded, with the sender
      attached, to the other side of the call; nothing is stored. */
  function Relay(st: State, sock: SocketId, kind: RtcKind, callId: CallId, signal: Signal): (t: Transition)
    ensures t.next == st
    ensures sock !in st.conns || callId !in OrderedMap.Keys(st.calls) ==> t.out == []
    ensures sock in st.conns && callId in OrderedMap.Keys(st.calls) ==>
      var sender := st.conns[sock];
      var target := Counterpart(OrderedMap.Get(st.calls, callId).value, sender);
      t.out == if Reachable(st, target) then [Push(target, RtcRelay(kind, callId, sender, signal))] else []
  {
    if sock !in st.conns then Transition(st, [])
    else
      match OrderedMap.Get(st.calls, callId)
      case None => Transition(st, [])
      case Some(c) =>
        var sender := st.conns[sock];
        Transition(st, SendTo(Live(st.clients, st.conns), Counterpart(c, sender), RtcRelay(kind, callId, sender, signal)))
  }

  /** The calls left after a sweep, and the notices it sent. */
  datatype Sweep = Sweep(kept: OrderedMap.Entries<CallId, Call>, out: seq<Outbound>)

  /** The loop of the `close` handler over `activeCalls`: every call involving
      `u` is deleted and its other side, if it has an entry among `clients`,
      gets `call_ended`. */
  function EndCallsOf(calls: OrderedMap.Entries<CallId, Call>, u: UserId, clients: OrderedMap.Entries<UserId, SocketId>): (r: Sweep)
    ensures forall i :: 0 <= i < |r.kept| ==> !Involves(r.kept[i].1, u)
    ensures forall e :: e in r.kept <==> e in calls && !Involves(e.1, u)
    ensures OrderedMap.DistinctKeys(calls) ==> OrderedMap.DistinctKeys(r.kept)
    ensures forall o :: o in r.out ==>
      && o.Push? && o.ev.CallEnded? && o.to in OrderedMap.Keys(clients)
      && exists i :: 0 <= i < |calls| && calls[i].0 == o.ev.callId && Involves(calls[i].1, u)
                     && o.to == Counterpart(calls[i].1, u)
  {
    if |calls| == 0 then Sweep([], [])
    else
      var rest := EndCallsOf(calls[1..], u, clients);
      var (id, c) := calls[0];
      if Involves(c, u) then
        Sweep(rest.kept, SendTo(clients, Counterpart(c, u), CallEnded(id)) + rest.out)
      else
        Sweep([calls[0]] + rest.kept, rest.out)
  }

  /** With distinct call ids, the sweep sends exactly one `call_ended` for each
      call involving `u` whose other side has an entry among `clients`, and none
      otherwise. */
  lemma EndCallsOfNotifiesOnce(calls: OrderedMap.Entries<CallId, Call>, u: UserId,
                               clients: OrderedMap.Entries<UserId, SocketId>)
    requires OrderedMap.DistinctKeys(calls)
    ensures forall i :: 0 <= i < |calls| && Involves(calls[i].1, u) ==>
      var other := Counterpart(calls[i].1, u);
      multiset(EndCallsOf(calls, u, clients).out)[Push(other, CallEnded(calls[i].0))] ==
        if other in OrderedMap.Keys(clients) then 1 else 0
  {
    forall i | 0 <= i < |calls| && Involves(calls[i].1, u) {
      NoticeCount(calls, u, clients, i);
    }
  }

  /** The count of `EndCallsOfNotifiesOnce` for the call at index `i`. */
  lemma {:induction false} NoticeCount(calls: OrderedMap.Entries<CallId, Call>, u: UserId,
                                       clients: OrderedMap.Entries<UserId, SocketId>, i: nat)
    requires OrderedMap.DistinctKeys(calls) && i < |calls| && Involves(calls[i].1, u)
    ensures
      var other := Counterpart(calls[i].1, u);
      multiset(EndCallsOf(calls, u, clients).out)[Push(other, CallEnded(calls[i].0))] ==
        if other in OrderedMap.Keys(clients) then 1 else 0
    decreases |calls|, 1
  {
    if i == 0 {
      HeadNoticeCount(calls, u, clients);
    } else {
      TailNoticeCount(calls, u, clients, i);
    }
  }

  /** The first call's notice is not repeated by the rest of the sweep. */
  lemma HeadNoticeCount(calls: OrderedMap.Entries<CallId, Call>, u: UserId,
                        clients: OrderedMap.Entries<UserId, SocketId>)
    requires OrderedMap.DistinctKeys(calls) && 0 < |calls| && Involves(calls[0].1, u)
    ensures
      var other := Counterpart(calls[0].1, u);
      multiset(EndCallsOf(calls, u, clients).out)[Push(other, CallEnded(calls[0].0))] ==
        if other in OrderedMap.Keys(clients) then 1 else 0
  {
    var head := SweepHead(calls, u, clients);
    var rest := EndCallsOf(calls[1..], u, clients).out;
    var o := Push(Counterpart(calls[0].1, u), CallEnded(calls[0].0));
    SweepSplits(calls, u, clients);
    NoNoticeForUnknownCall(calls[1..], u, clients, calls[0].0);
    assert multiset(head + rest)[o] == multiset(head)[o] + multiset(rest)[o];
  }

  /** A later call's notice comes from the rest of the sweep alone. */
  lemma {:induction false} TailNoticeCount(calls: OrderedMap.Entries<CallId, Call>, u: UserId,
                                           clients: OrderedMap.Entries<UserId, SocketId>, i: nat)
    requires OrderedMap.DistinctKeys(calls) && 0 < i < |calls| && Involves(calls[i].1, u)
    ensures
      var other := Counterpart(calls[i].1, u);
      multiset(EndCallsOf(calls, u, clients).out)[Push(other, CallEnded(calls[i].0))] ==
        if other in OrderedMap.Keys(clients) then 1 else 0
    decreases |calls|, 0
  {
    var tail := calls[1..];
    assert tail[i - 1] == calls[i];
    NoticeCount(tail, u, clients, i - 1);
    var head := SweepHead(calls, u, clients);
    var rest := EndCallsOf(tail, u, clients).out;
    var o := Push(Counterpart(calls[i].1, u), CallEnded(calls[i].0));
    SweepSplits(calls, u, clients);
    assert calls[i].0 in OrderedMap.Keys(tail);
    assert o !in head;
    assert multiset(head + rest)[o] == multiset(head)[o] + multiset(rest)[o];
  }

  /** What the sweep sends for the first call of a non-empty table. */
  function SweepHead(calls: OrderedMap.Entries<CallId, Call>, u: UserId,
                     clients: OrderedMap.Entries<UserId, SocketId>): seq<Outbound>
    requires |calls| > 0
  {
    if Involves(calls[0].1, u) then SendTo(clients, Counterpart(calls[0].1, u), CallEnded(calls[0].0)) else []
  }

  /** The sweep's notices are those for the first call followed by those for the rest. */
  lemma SweepSplits(calls: OrderedMap.Entries<CallId, Call>, u: UserId,
                    clients: OrderedMap.Entries<UserId, SocketId>)
    requires |calls| > 0
    ensures EndCallsOf(calls, u, clients).out == SweepHead(calls, u, clients) + EndCallsOf(calls[1..], u, clients).out
  {
  }

  /** The sweep sends no notice about a call id absent from the table. */
  lemma NoNoticeForUnknownCall(calls: OrderedMap.Entries<CallId, Call>, u: UserId,
                               clients: OrderedMap.Entries<UserId, SocketId>, id: CallId)
    requires id !in OrderedMap.Keys(calls)
    ensures forall o :: o in EndCallsOf(calls, u, clients).out ==> o.ev != CallEnded(id)
  {
  }

  /** The callee can accept the call just placed to them, and then the caller,
      if reachable, is the one user told. */
  lemma StartThenAccept(st: State, callerSock: SocketId, calleeSock: SocketId, to: UserId, callId: CallId, now: int)
    requires callerSock in st.conns && to in st.users && Registered(st, to)
    requires calleeSock in st.conns && st.conns[calleeSock] == to
    ensures
      var caller := st.conns[callerSock];
      var placed := StartCall(st, callerSock, to, callId, now);
      var accepted := AcceptCall(placed.next, calleeSock, callId);
      && OrderedMap.Get(accepted.next.calls, callId) == Some(Call(callId, caller, to, Connected, now))
      && accepted.out == if Reachable(st, caller) then [Push(caller, CallAccepted(callId))] else []
  {
  }

  /** Ending a call a second time is a silent no-op. */
  lemma EndCallTwiceIsNoOp(st: State, sock: SocketId, callId: CallId)
    ensures
      var ended := EndCall(st, sock, callId);
      EndCall(ended.next, sock, callId) == Transition(ended.next, [])
  {
  }

  /** `end_call` does not check that the requester is on the call: a third
      party ends it, and only the caller is told, never the callee. */
  lemma OutsiderEndsCall(st: State, sock: SocketId, callId: CallId)
    requires sock in st.conns && callId in OrderedMap.Keys(st.calls)
    requires !Involves(OrderedMap.Get(st.calls, callId).value, st.conns[sock])
    requires OrderedMap.Get(st.calls, callId).value.from != OrderedMap.Get(st.calls, callId).value.to
    ensures
      var c := OrderedMap.Get(st.calls, callId).value;
      var t := EndCall(st, sock, callId);
      && callId !in OrderedMap.Keys(t.next.calls)
      && Push(c.to, CallEnded(callId)) !in t.out
      && (Reachable(st, c.from) ==> t.out == [Push(c.from, CallEnded(callId))])
  {
  }
}

=== FILE: collections.dfy ===
/**
 General facts about sequences and maps that the model's proofs use.
 */
module Collections {
  /** Appending after a non-empty sequence appends after its tail. */
  lemma ConsAppend<T>(s: seq<T>, x: T)
    requires |s| > 0
    ensures s + [x] == [s[0]] + (s[1..] + [x])
  {
    assert s == [s[0]] + s[1..];
  }

  /** Replacing the head of `s` keeps every later entry in place. */
  lemma ConsReplacedHead<T>(s: seq<T>, x: T)
    requires |s| > 0
    ensures |[x] + s[1..]| == |s|
    ensures forall j :: 0 <= j < |s| ==> ([x] + s[1..])[j] == if j == 0 then x else s[j]
  {
  }

  /** Putting back the head of `s` in front of its tail with the entry at
      `i - 1` replaced gives `s` with the entry at `i` replaced. */
  lemma ConsReplaced<T>(s: seq<T>, rt: seq<T>, i: nat, x: T)
    requires 0 < i < |s| && |rt| == |s| - 1
    requires forall j :: 0 <= j < |rt| ==> rt[j] == if j == i - 1 then x else s[1..][j]
    ensures forall j :: 0 <= j < |s| ==> ([s[0]] + rt)[j] == if j == i then x else s[j]
  {
    forall j | 0 < j < |s|
      ensures ([s[0]] + rt)[j] == if j == i then x else s[j]
    {
      assert s[j] == s[1..][j - 1];
    }
  }

  /** Writing back a key's old value undoes an update of that key. */
  lemma UpdateUndone<K, V>(m: map<K, V>, k: K, x: V)
    requires k in m
    ensures m[k := x][k := m[k]] == m
  {
  }

  /** Removing a key that was just added to a map without it restores the map. */
  lemma AddThenRemove<K, V>(m: map<K, V>, k: K, v: V)
    requires k !in m
    ensures m[k := v] - {k} == m
  {
  }
}

=== FILE: group_calls.dfy ===
/**
 Group calls: a persisted roster per group (`db.groupCalls`), created by the
 first `start_group_call`, grown by starts and joins without duplicates, shrunk
 by leaves and destroyed when it becomes empty. Every roster change is announced
 to the group's reachable members.
 */
module GroupCalls {
  import opened Wrappers
  import OrderedMap
  import Collections
  import opened Model

  /** The frame a member receives when `starter` starts (or re-enters) the call. */
  function StartNotice(m: UserId, starter: UserId, groupId: ChatId, name: string, callId: CallId, view: seq<UserId>): Event {
    if m == starter then GroupCallStarted(groupId, name, callId, view)
    else IncomingGroupCall(groupId, name, callId, view)
  }

  /** The per-member loop of `start_group_call`. */
  function Announce(clients: OrderedMap.Entries<UserId, SocketId>, members: seq<UserId>, starter: UserId,
                    groupId: ChatId, name: string, callId: CallId, view: seq<UserId>): (out: seq<Outbound>)
    ensures forall o :: o in out ==>
      && o.Push? && o.to in members && o.to in OrderedMap.Keys(clients)
      && o.ev == StartNotice(o.to, starter, groupId, name, callId, view)
    ensures forall m ::
      multiset(out)[Push(m, StartNotice(m, starter, groupId, name, callId, view))] ==
      (if m in OrderedMap.Keys(clients) then multiset(members)[m] else 0)
  {
    if |members| == 0 then []
    else
      assert members == [members[0]] + members[1..];
      var m := members[0];
      SendTo(clients, m, StartNotice(m, starter, groupId, name, callId, view))
        + Announce(clients, members[1..], starter, groupId, name, callId, view)
  }

  /** The roster after `u` enters an existing call: appended only if absent. */
  function Enter(gc: GroupCall, u: UserId): (r: GroupCall)
    ensures r.id == gc.id && r.groupId == gc.groupId && r.startedAt == gc.startedAt
    ensures u in r.participants
    ensures |r.participants| == |gc.participants| + (if u in gc.participants then 0 else 1)
    ensures r.participants[..|gc.participants|] == gc.participants
    ensures forall p :: p in r.participants <==> p in gc.participants || p == u
    ensures NoDup(gc.participants) ==> NoDup(r.participants)
  {
    if u in gc.participants then gc else gc.(participants := gc.participants + [u])
  }

  /** `start_group_call`: members only; creates the roster `[u]` or enters the existing one. */
  function StartGroupCall(st: State, sock: SocketId, groupId: ChatId, callId: CallId, now: int): (t: Transition)
    ensures sock !in st.conns ==> t == Transition(st, [])
    ensures sock in st.conns && (groupId !in st.groups || st.conns[sock] !in st.groups[groupId].members) ==>
      t == Transition(st, [Reply(CallError(GroupNotFound))])
    ensures sock in st.conns && groupId in st.groups && st.conns[sock] in st.groups[groupId].members ==>
      var u := st.conns[sock];
      var g := st.groups[groupId];
      && t.next == st.(groupCalls := t.next.groupCalls)
      && groupId in t.next.groupCalls
      && t.next.groupCalls == st.groupCalls[groupId := t.next.groupCalls[groupId]]
      && var gc := t.next.groupCalls[groupId];
      && (groupId !in st.groupCalls ==> gc == GroupCall(callId, groupId, [u], now))
      && (groupId in st.groupCalls ==> gc == Enter(st.groupCalls[groupId], u))
      && var view := RosterView(st.users, gc.participants);
      && (forall o :: o in t.out ==> o.Push? && o.ev == StartNotice(o.to, u, groupId, g.name, gc.id, view))
      && (forall m :: multiset(t.out)[Push(m, StartNotice(m, u, groupId, g.name, gc.id, view))] ==
            if Reachable(st, m) then multiset(g.members)[m] else 0)
  {
    if sock !in st.conns then Transition(st, [])
    else
      var u := st.conns[sock];
      if groupId !in st.groups || u !in st.groups[groupId].members then
        Transition(st, [Reply(CallError(GroupNotFound))])
      else
        var g := st.groups[groupId];
        var gc := if groupId in st.groupCalls then Enter(st.groupCalls[groupId], u)
                  else GroupCall(callId, groupId, [u], now);
        var next := st.(groupCalls := st.groupCalls[groupId := gc]);
        Transition(next, Announce(Live(st.clients, st.conns), g.members, u, groupId, g.name, gc.id, RosterView(st.users, gc.participants)))
  }

  /** `join_group_call`: needs an existing call and group, but not membership. */
  function JoinGroupCall(st: State, sock: SocketId, groupId: ChatId): (t: Transition)
    ensures sock !in st.conns ==> t == Transition(st, [])
    ensures sock in st.conns && (groupId !in st.groupCalls || groupId !in st.groups) ==>
      t == Transition(st, [Reply(CallError(CallNotFound))])
    ensures sock in st.conns && groupId in st.groupCalls && groupId in st.groups ==>
      var u := st.conns[sock];
      var gc := Enter(st.groupCalls[groupId], u);
      var ev := GroupCallUpdated(groupId, RosterView(st.users, gc.participants));
      && t.next == st.(groupCalls := st.groupCalls[groupId := gc])
      && (forall o :: o in t.out ==> o.Push? && o.ev == ev && o.to in st.groups[groupId].members)
      && (forall m :: multiset(t.out)[Push(m, ev)] == if Reachable(st, m) then multiset(st.groups[groupId].members)[m] else 0)
  {
    if sock !in st.conns then Transition(st, [])
    else if groupId !in st.groupCalls || groupId !in st.groups then
      Transition(st, [Reply(CallError(CallNotFound))])
    else
      var gc := Enter(st.groupCalls[groupId], st.conns[sock]);
      var next := st.(groupCalls := st.groupCalls[groupId := gc]);
      Transition(next, Notify(Live(st.clients, st.conns), st.groups[groupId].members, GroupCallUpdated(groupId, RosterView(st.users, gc.participants))))
  }

  /** `leave_group_call`: removes `u`; the record is deleted exactly when the
      roster becomes empty, and then `group_call_ended` replaces `group_call_updated`. */
  function LeaveGroupCall(st: State, sock: SocketId, groupId: ChatId): (t: Transition)
    ensures sock !in st.conns || groupId !in st.groupCalls || groupId !in st.groups ==> t == Transition(st, [])
    ensures sock in st.conns && groupId in st.groupCalls && groupId in st.groups ==>
      var u := st.conns[sock];
      var before := st.groupCalls[groupId];
      var left := Without(before.participants, u);
      var ev := if |left| == 0 then GroupCallEnded(groupId, []) else GroupCallUpdated(groupId, RosterView(st.users, left));
      && t.next == st.(groupCalls := t.next.groupCalls)
      && (groupId in t.next.groupCalls <==> |left| > 0)
      && (forall k :: k != groupId ==> (k in t.next.groupCalls <==> k in st.groupCalls))
      && (forall k :: k != groupId && k in st.groupCalls ==> t.next.groupCalls[k] == st.groupCalls[k])
      && (groupId in t.next.groupCalls ==>
            && t.next.groupCalls[groupId] == before.(participants := t.next.groupCalls[groupId].participants)
            && multiset(t.next.groupCalls[groupId].participants) == multiset(before.participants)[u := 0])
      && (forall o :: o in t.out ==> o.Push? && o.ev == ev && o.to in st.groups[groupId].members)
      && (forall m :: multiset(t.out)[Push(m, ev)] == if Reachable(st, m) then multiset(st.groups[groupId].members)[m] else 0)
  {
    if sock !in st.conns || groupId !in st.groupCalls || groupId !in st.groups then Transition(st, [])
    else
      var u := st.conns[sock];
      var before := st.groupCalls[groupId];
      var left := Without(before.participants, u);
      var next := if |left| == 0 then st.(groupCalls := st.groupCalls - {groupId})
                  else st.(groupCalls := st.groupCalls[groupId := before.(participants := left)]);
      var ev := if |left| == 0 then GroupCallEnded(groupId, RosterView(st.users, left))
                else GroupCallUpdated(groupId, RosterView(st.users, left));
      Transition(next, Notify(Live(st.clients, st.conns), st.groups[groupId].members, ev))
  }

  /** `group_rtc_offer` / `group_rtc_answer` / `group_rtc_ice`: forwarded to the
      named target whether or not either side is in a call, and even from a
      socket that never authenticated (the sender is then `null`, `None` here). */
  function GroupRelay(st: State, sock: SocketId, kind: RtcKind, target: UserId, signal: Signal): (t: Transition)
    ensures t.next == st
    ensures !Reachable(st, target) ==> t.out == []
    ensures Reachable(st, target) ==>
      t.out == [Push(target, GroupRtcRelay(kind, target, if sock in st.conns then Some(st.conns[sock]) else None, signal))]
  {
    var origin := if sock in st.conns then Some(st.conns[sock]) else None;
    Transition(st, SendTo(Live(st.clients, st.conns), target, GroupRtcRelay(kind, target, origin, signal)))
  }

  /** The state `join_group_call` leaves behind for a newcomer. */
  lemma JoinAppendsNewcomer(st: State, sock: SocketId, groupId: ChatId)
    requires sock in st.conns && groupId in st.groupCalls && groupId in st.groups
    requires st.conns[sock] !in st.groupCalls[groupId].participants
    ensures
      var before := st.groupCalls[groupId];
      JoinGroupCall(st, sock, groupId).next ==
        st.(groupCalls := st.groupCalls[groupId := before.(participants := before.participants + [st.conns[sock]])])
  {
  }

  /** The state `leave_group_call` leaves behind when others remain. */
  lemma LeaveKeepsOthers(st: State, sock: SocketId, groupId: ChatId)
    requires sock in st.conns && groupId in st.groupCalls && groupId in st.groups
    requires |Without(st.groupCalls[groupId].participants, st.conns[sock])| > 0
    ensures
      var before := st.groupCalls[groupId];
      LeaveGroupCall(st, sock, groupId).next ==
        st.(groupCalls := st.groupCalls[groupId := before.(participants := Without(before.participants, st.conns[sock]))])
  {
  }

  /** Leaving a call one has just been appended to restores the earlier state. */
  lemma LeaveUndoesAppend(st: State, joined: State, sock: SocketId, groupId: ChatId)
    requires sock in st.conns && groupId in st.groupCalls && groupId in st.groups
    requires |st.groupCalls[groupId].participants| > 0
    requires st.conns[sock] !in st.groupCalls[groupId].participants
    requires joined == st.(groupCalls := st.groupCalls[groupId := st.groupCalls[groupId].(participants := st.groupCalls[groupId].participants + [st.conns[sock]])])
    ensures LeaveGroupCall(joined, sock, groupId).next == st
  {
    var u := st.conns[sock];
    var before := st.groupCalls[groupId];
    WithoutAppended(before.participants, u);
    LeaveKeepsOthers(joined, sock, groupId);
    Collections.UpdateUndone(st.groupCalls, groupId, before.(participants := before.participants + [u]));
  }

  /** Joining a call one was not in and leaving it again restores the state. */
  lemma JoinThenLeaveRestores(st: State, sock: SocketId, groupId: ChatId)
    requires sock in st.conns && groupId in st.groupCalls && groupId in st.groups
    requires |st.groupCalls[groupId].participants| > 0
    requires st.conns[sock] !in st.groupCalls[groupId].participants
    ensures LeaveGroupCall(JoinGroupCall(st, sock, groupId).next, sock, groupId).next == st
  {
    JoinAppendsNewcomer(st, sock, groupId);
    LeaveUndoesAppend(st, JoinGroupCall(st, sock, groupId).next, sock, groupId);
  }

  /** The state the first `start_group_call` of a group leaves behind. */
  lemma StartCreatesRoster(st: State, sock: SocketId, groupId: ChatId, callId: CallId, now: int)
    requires sock in st.conns && groupId in st.groups && st.conns[sock] in st.groups[groupId].members
    requires groupId !in st.groupCalls
    ensures StartGroupCall(st, sock, groupId, callId, now).next ==
      st.(groupCalls := st.groupCalls[groupId := GroupCall(callId, groupId, [st.conns[sock]], now)])
  {
  }

  /** The last participant's `leave_group_call` destroys the record and
      announces `group_call_ended` to every reachable member. */
  lemma LeaveLastEndsCall(st: State, sock: SocketId, groupId: ChatId)
    requires sock in st.conns && groupId in st.groupCalls && groupId in st.groups
    requires Without(st.groupCalls[groupId].participants, st.conns[sock]) == []
    ensures LeaveGroupCall(st, sock, groupId).next == st.(groupCalls := st.groupCalls - {groupId})
    ensures forall o :: o in LeaveGroupCall(st, sock, groupId).out ==> o.Push? && o.ev == GroupCallEnded(groupId, [])
    ensures forall m :: m in st.groups[groupId].members && Reachable(st, m) ==>
      Push(m, GroupCallEnded(groupId, [])) in LeaveGroupCall(st, sock, groupId).out
  {
    var t := LeaveGroupCall(st, sock, groupId);
    forall m | m in st.groups[groupId].members && Reachable(st, m)
      ensures Push(m, GroupCallEnded(groupId, [])) in t.out
    {
      assert multiset(t.out)[Push(m, GroupCallEnded(groupId, []))] > 0;
    }
  }

  /** The roster value `ps` stored for `groupId` on top of `st`. */
  function WithRoster(st: State, groupId: ChatId, gc: GroupCall, ps: seq<UserId>): State {
    st.(groupCalls := st.groupCalls[groupId := gc.(participants := ps)])
  }

  /** Storing a second roster for the same group replaces the first. */
  lemma WithRosterTwice(st: State, groupId: ChatId, gc: GroupCall, ps: seq<UserId>, qs: seq<UserId>)
    ensures
      var s := WithRoster(st, groupId, gc, ps);
      s.(groupCalls := s.groupCalls[groupId := gc.(participants := qs)]) == WithRoster(st, groupId, gc, qs)
  {
    var s := WithRoster(st, groupId, gc, ps);
    assert s.groupCalls[groupId := gc.(participants := qs)] == st.groupCalls[groupId := gc.(participants := qs)];
  }

  /** `join_group_call` on a stored roster `ps` that lacks the joiner. */
  lemma JoinOnto(st: State, sock: SocketId, groupId: ChatId, gc: GroupCall, ps: seq<UserId>, joined: seq<UserId>)
    requires sock in st.conns && groupId in st.groups && st.conns[sock] !in ps
    requires joined == ps + [st.conns[sock]]
    ensures JoinGroupCall(WithRoster(st, groupId, gc, ps), sock, groupId).next ==
      WithRoster(st, groupId, gc, joined)
  {
    JoinAppendsNewcomer(WithRoster(st, groupId, gc, ps), sock, groupId);
    WithRosterTwice(st, groupId, gc, ps, joined);
  }

  /** `leave_group_call` on a stored roster `ps` that keeps someone else. */
  lemma LeaveFrom(st: State, sock: SocketId, groupId: ChatId, gc: GroupCall, ps: seq<UserId>)
    requires sock in st.conns && groupId in st.groups && Without(ps, st.conns[sock]) != []
    ensures LeaveGroupCall(WithRoster(st, groupId, gc, ps), sock, groupId).next ==
      WithRoster(st, groupId, gc, Without(ps, st.conns[sock]))
  {
    LeaveKeepsOthers(WithRoster(st, groupId, gc, ps), sock, groupId);
    WithRosterTwice(st, groupId, gc, ps, Without(ps, st.conns[sock]));
  }

  /** A second participant joins a one-person roster. */
  lemma SecondJoins(st: State, sy: SocketId, x: UserId, groupId: ChatId, gc: GroupCall)
    requires sy in st.conns && groupId in st.groups && st.conns[sy] != x
    ensures JoinGroupCall(WithRoster(st, groupId, gc, [x]), sy, groupId).next ==
      WithRoster(st, groupId, gc, [x, st.conns[sy]])
  {
    JoinOnto(st, sy, groupId, gc, [x], [x, st.conns[sy]]);
  }

  /** A third participant joins a two-person roster. */
  lemma ThirdJoins(st: State, sz: SocketId, x: UserId, y: UserId, groupId: ChatId, gc: GroupCall)
    requires sz in st.conns && groupId in st.groups && st.conns[sz] != x && st.conns[sz] != y
    ensures JoinGroupCall(WithRoster(st, groupId, gc, [x, y]), sz, groupId).next ==
      WithRoster(st, groupId, gc, [x, y, st.conns[sz]])
  {
    JoinOnto(st, sz, groupId, gc, [x, y], [x, y, st.conns[sz]]);
  }

  /** The last participant leaving a call that did not exist before it
      started restores the state from before the call. */
  lemma LastLeaveRestores(st: State, sock: SocketId, groupId: ChatId, gc: GroupCall)
    requires sock in st.conns && groupId in st.groups && groupId !in st.groupCalls
    ensures LeaveGroupCall(WithRoster(st, groupId, gc, [st.conns[sock]]), sock, groupId).next == st
    ensures forall o :: o in LeaveGroupCall(WithRoster(st, groupId, gc, [st.conns[sock]]), sock, groupId).out ==>
      o.Push? && o.ev == GroupCallEnded(groupId, [])
  {
    var s := WithRoster(st, groupId, gc, [st.conns[sock]]);
    assert Without([st.conns[sock]], st.conns[sock]) == [];
    LeaveLastEndsCall(s, sock, groupId);
    Collections.AddThenRemove(st.groupCalls, groupId, gc.(participants := [st.conns[sock]]));
  }

  /** The first participant of a roster leaves; the rest stay, in order. */
  lemma FirstLeaves(st: State, sock: SocketId, groupId: ChatId, gc: GroupCall, rest: seq<UserId>)
    requires sock in st.conns && groupId in st.groups && rest != [] && st.conns[sock] !in rest
    ensures LeaveGroupCall(WithRoster(st, groupId, gc, [st.conns[sock]] + rest), sock, groupId).next ==
      WithRoster(st, groupId, gc, rest)
  {
    var u := st.conns[sock];
    assert ([u] + rest)[1..] == rest;
    assert Without([u] + rest, u) == rest;
    LeaveFrom(st, sock, groupId, gc, [u] + rest);
  }

  /** The first of three participants leaves. */
  lemma FirstOfThreeLeaves(st: State, sx: SocketId, y: UserId, z: UserId, groupId: ChatId, gc: GroupCall)
    requires sx in st.conns && groupId in st.groups
    requires st.conns[sx] != y && st.conns[sx] != z
    ensures LeaveGroupCall(WithRoster(st, groupId, gc, [st.conns[sx], y, z]), sx, groupId).next ==
      WithRoster(st, groupId, gc, [y, z])
  {
    assert [st.conns[sx], y, z] == [st.conns[sx]] + [y, z];
    FirstLeaves(st, sx, groupId, gc, [y, z]);
  }

  /** The first of two participants leaves. */
  lemma FirstOfTwoLeaves(st: State, sy: SocketId, z: UserId, groupId: ChatId, gc: GroupCall)
    requires sy in st.conns && groupId in st.groups && st.conns[sy] != z
    ensures LeaveGroupCall(WithRoster(st, groupId, gc, [st.conns[sy], z]), sy, groupId).next ==
      WithRoster(st, groupId, gc, [z])
  {
    assert [st.conns[sy], z] == [st.conns[sy]] + [z];
    FirstLeaves(st, sy, groupId, gc, [z]);
  }

  /** The scenario of a group {x, y, z}: x starts, y and z join, then x, y and z
      leave in turn. The roster is [x], [x, y], [x, y, z], [y, z], [z], and the
      last leave destroys the record, leaving the state as it was, with
      `group_call_ended` as the only frame it sends. */
  lemma ThreeMemberCallScenario(st: State, sx: SocketId, sy: SocketId, sz: SocketId, groupId: ChatId, callId: CallId, now: int)
    requires sx in st.conns && sy in st.conns && sz in st.conns
    requires st.conns[sx] != st.conns[sy] && st.conns[sy] != st.conns[sz] && st.conns[sx] != st.conns[sz]
    requires groupId in st.groups && groupId !in st.groupCalls
    requires st.conns[sx] in st.groups[groupId].members
    ensures
      var (x, y, z) := (st.conns[sx], st.conns[sy], st.conns[sz]);
      var s1 := StartGroupCall(st, sx, groupId, callId, now).next;
      var s2 := JoinGroupCall(s1, sy, groupId).next;
      var s3 := JoinGroupCall(s2, sz, groupId).next;
      var s4 := LeaveGroupCall(s3, sx, groupId).next;
      var s5 := LeaveGroupCall(s4, sy, groupId).next;
      var last := LeaveGroupCall(s5, sz, groupId);
      && groupId in s1.groupCalls && s1.groupCalls[groupId].participants == [x]
      && groupId in s2.groupCalls && s2.groupCalls[groupId].participants == [x, y]
      && groupId in s3.groupCalls && s3.groupCalls[groupId].participants == [x, y, z]
      && groupId in s4.groupCalls && s4.groupCalls[groupId].participants == [y, z]
      && groupId in s5.groupCalls && s5.groupCalls[groupId].participants == [z]
      && last.next == st
      && (forall o :: o in last.out ==> o.Push? && o.ev == GroupCallEnded(groupId, []))
  {
    var (x, y, z) := (st.conns[sx], st.conns[sy], st.conns[sz]);
    var gc := GroupCall(callId, groupId, [x], now);
    StartCreatesRoster(st, sx, groupId, callId, now);
    SecondJoins(st, sy, x, groupId, gc);
    ThirdJoins(st, sz, x, y, groupId, gc);
    FirstOfThreeLeaves(st, sx, y, z, groupId, gc);
    FirstOfTwoLeaves(st, sy, z, groupId, gc);
    LastLeaveRestores(st, sz, groupId, gc);
  }
}

=== FILE: groups.dfy ===
/**
 Group membership endpoints: leaving a group, kicking a member and granting or
 revoking admin rights. `actor` is the user the request's session resolves to,
 absent when it resolves to none.
 */
module Groups {
  import opened Wrappers
  import opened Model

  /** The state after a request and the HTTP status of its response. */
  datatype HttpResult = HttpResult(next: State, status: nat)

  /** The admin list, read as empty when the field is absent (`admins || []`). */
  function Admins(g: Group): seq<UserId> {
    if g.admins.Some? then g.admins.value else []
  }

  /** The group with `members` and `admins` both filtered of `u`; an absent
      admin list comes back present and empty. */
  function Remove(g: Group, u: UserId): (r: Group)
    ensures r.name == g.name && r.ownerId == g.ownerId && r.admins.Some?
    ensures multiset(r.members) == multiset(g.members)[u := 0]
    ensures multiset(Admins(r)) == multiset(Admins(g))[u := 0]
    ensures u !in r.members && u !in Admins(r)
  {
    g.(members := Without(g.members, u), admins := Some(Without(Admins(g), u)))
  }

  /** `POST /api/groups/:id/leave`: anyone but the owner may leave. */
  function LeaveGroup(st: State, actor: Option<UserId>, groupId: ChatId): (r: HttpResult)
    ensures actor.None? ==> r == HttpResult(st, 401)
    ensures actor.Some? && groupId !in st.groups ==> r == HttpResult(st, 404)
    ensures actor.Some? && groupId in st.groups && actor.value == st.groups[groupId].ownerId ==> r == HttpResult(st, 400)
    ensures r.status == 200 <==> actor.Some? && groupId in st.groups && actor.value != st.groups[groupId].ownerId
    ensures r.status == 200 ==>
      var g := st.groups[groupId];
      && groupId in r.next.groups
      && r.next == st.(groups := st.groups[groupId := r.next.groups[groupId]])
      && r.next.groups[groupId].ownerId == g.ownerId
      && actor.value !in r.next.groups[groupId].members
      && actor.value !in Admins(r.next.groups[groupId])
      && (forall p :: p != actor.value ==> multiset(r.next.groups[groupId].members)[p] == multiset(g.members)[p])
      && (forall p :: p != actor.value ==> multiset(Admins(r.next.groups[groupId]))[p] == multiset(Admins(g))[p])
  {
    if actor.None? then HttpResult(st, 401)
    else if groupId !in st.groups then HttpResult(st, 404)
    else if actor.value == st.groups[groupId].ownerId then HttpResult(st, 400)
    else HttpResult(st.(groups := st.groups[groupId := Remove(st.groups[groupId], actor.value)]), 200)
  }

  /** `POST /api/groups/:id/kick`: admins only, and never the owner. A group
      without an admin list lets nobody kick. */
  function Kick(st: State, actor: Option<UserId>, groupId: ChatId, target: UserId): (r: HttpResult)
    ensures actor.None? ==> r == HttpResult(st, 401)
    ensures actor.Some? && groupId !in st.groups ==> r == HttpResult(st, 404)
    ensures actor.Some? && groupId in st.groups && actor.value !in Admins(st.groups[groupId]) ==> r == HttpResult(st, 403)
    ensures actor.Some? && groupId in st.groups && actor.value in Admins(st.groups[groupId]) && target == st.groups[groupId].ownerId ==>
      r == HttpResult(st, 400)
    ensures r.status == 200 <==>
      actor.Some? && groupId in st.groups && actor.value in Admins(st.groups[groupId]) && target != st.groups[groupId].ownerId
    ensures r.status == 200 ==>
      var g := st.groups[groupId];
      && groupId in r.next.groups
      && r.next == st.(groups := st.groups[groupId := r.next.groups[groupId]])
      && r.next.groups[groupId].ownerId == g.ownerId
      && target !in r.next.groups[groupId].members
      && target !in Admins(r.next.groups[groupId])
      && (forall p :: p != target ==> multiset(r.next.groups[groupId].members)[p] == multiset(g.members)[p])
      && (forall p :: p != target ==> multiset(Admins(r.next.groups[groupId]))[p] == multiset(Admins(g))[p])
  {
    if actor.None? then HttpResult(st, 401)
    else if groupId !in st.groups then HttpResult(st, 404)
    else if actor.value !in Admins(st.groups[groupId]) then HttpResult(st, 403)
    else if target == st.groups[groupId].ownerId then HttpResult(st, 400)
    else HttpResult(st.(groups := st.groups[groupId := Remove(st.groups[groupId], target)]), 200)
  }

  /** The admin list `admin` starts from: an absent list is first set to the owner alone. */
  function AdminBase(g: Group): (r: seq<UserId>)
    ensures g.admins.Some? ==> r == g.admins.value
    ensures g.admins.None? ==> r == [g.ownerId]
  {
    if g.admins.Some? then g.admins.value else [g.ownerId]
  }

  /** `POST /api/groups/:id/admin`: the owner grants or revokes admin rights of
      a member. Nothing stops the owner from revoking their own rights. */
  function SetAdmin(st: State, actor: Option<UserId>, groupId: ChatId, target: UserId, isAdmin: bool): (r: HttpResult)
    ensures actor.None? ==> r == HttpResult(st, 401)
    ensures actor.Some? && groupId !in st.groups ==> r == HttpResult(st, 404)
    ensures actor.Some? && groupId in st.groups && actor.value != st.groups[groupId].ownerId ==> r == HttpResult(st, 403)
    ensures actor.Some? && groupId in st.groups && actor.value == st.groups[groupId].ownerId && target !in st.groups[groupId].members ==>
      r == HttpResult(st, 400)
    ensures r.status == 200 <==>
      actor.Some? && groupId in st.groups && actor.value == st.groups[groupId].ownerId && target in st.groups[groupId].members
    ensures r.status == 200 ==>
      var g := st.groups[groupId];
      && groupId in r.next.groups
      && r.next.groups[groupId].admins.Some?
      && r.next == st.(groups := st.groups[groupId := g.(admins := r.next.groups[groupId].admins)])
      && (isAdmin <==> target in Admins(r.next.groups[groupId]))
      && (forall p :: p != target ==> multiset(Admins(r.next.groups[groupId]))[p] == multiset(AdminBase(g))[p])
      && (NoDup(AdminBase(g)) ==> NoDup(Admins(r.next.groups[groupId])))
  {
    if actor.None? then HttpResult(st, 401)
    else if groupId !in st.groups then HttpResult(st, 404)
    else
      var g := st.groups[groupId];
      if actor.value != g.ownerId then HttpResult(st, 403)
      else if target !in g.members then HttpResult(st, 400)
      else
        var base := AdminBase(g);
        var admins := if isAdmin && target !in base then base + [target]
                      else if !isAdmin then Without(base, target)
                      else base;
        HttpResult(st.(groups := st.groups[groupId := g.(admins := Some(admins))]), 200)
  }

  /** `st` with the admin list of `groupId` present and set to `admins`. */
  function WithAdmins(st: State, groupId: ChatId, admins: seq<UserId>): State
    requires groupId in st.groups
  {
    st.(groups := st.groups[groupId := st.groups[groupId].(admins := Some(admins))])
  }

  /** On a group record without an admin list, `admin` acts as if the list
      held the owner alone: same status, and on success the same next state. */
  lemma AbsentAdminsActAsOwnerOnly(st: State, actor: Option<UserId>, groupId: ChatId, target: UserId, isAdmin: bool)
    requires groupId in st.groups && st.groups[groupId].admins.None?
    ensures
      var seeded := WithAdmins(st, groupId, [st.groups[groupId].ownerId]);
      var r := SetAdmin(st, actor, groupId, target, isAdmin);
      && r.status == SetAdmin(seeded, actor, groupId, target, isAdmin).status
      && (r.status == 200 ==> r.next == SetAdmin(seeded, actor, groupId, target, isAdmin).next)
  {
    if actor == Some(st.groups[groupId].ownerId) && target in st.groups[groupId].members {
      SeededAdminSameNext(st, groupId, target, isAdmin);
    }
  }

  /** The success case of `AbsentAdminsActAsOwnerOnly`. */
  lemma SeededAdminSameNext(st: State, groupId: ChatId, target: UserId, isAdmin: bool)
    requires groupId in st.groups && st.groups[groupId].admins.None? && target in st.groups[groupId].members
    ensures
      var owner := st.groups[groupId].ownerId;
      SetAdmin(st, Some(owner), groupId, target, isAdmin).next ==
        SetAdmin(WithAdmins(st, groupId, [owner]), Some(owner), groupId, target, isAdmin).next
  {
    var g := st.groups[groupId];
    var seeded := WithAdmins(st, groupId, [g.ownerId]);
    var h := seeded.groups[groupId];
    assert AdminBase(h) == AdminBase(g);
    forall a: Option<seq<UserId>>
      ensures h.(admins := a) == g.(admins := a)
      ensures seeded.groups[groupId := g.(admins := a)] == st.groups[groupId := g.(admins := a)]
    {
    }
  }

  /** Granting admin rights to a member who lacks them leads to the state
      `WithAdmins(st, groupId, a + [target])`, and revoking them from there
      restores `st` exactly. */
  lemma GrantThenRevokeRestores(st: State, groupId: ChatId, target: UserId)
    requires groupId in st.groups && target in st.groups[groupId].members
    requires st.groups[groupId].admins.Some? && target !in st.groups[groupId].admins.value
    ensures
      var g := st.groups[groupId];
      var granted := WithAdmins(st, groupId, g.admins.value + [target]);
      && SetAdmin(st, Some(g.ownerId), groupId, target, true) == HttpResult(granted, 200)
      && SetAdmin(granted, Some(g.ownerId), groupId, target, false) == HttpResult(st, 200)
  {
    var g := st.groups[groupId];
    var a := g.admins.value;
    var mid := WithAdmins(st, groupId, a + [target]);
    WithoutAppended(a, target);
    assert mid.groups[groupId := g] == st.groups;
  }

  /** The owner may revoke their own admin rights; from then on every kick
      they attempt is refused with 403, although they still own the group. */
  lemma OwnerDemotionRevokesKick(st: State, owner: UserId, groupId: ChatId, target: UserId)
    requires groupId in st.groups && st.groups[groupId].ownerId == owner && owner in st.groups[groupId].members
    ensures
      var demoted := SetAdmin(st, Some(owner), groupId, owner, false);
      && demoted.status == 200
      && demoted.next.groups[groupId].ownerId == owner
      && Kick(demoted.next, Some(owner), groupId, target).status == 403
  {
  }

  /** A kick request from a member, received after that member was kicked,
      is refused. */
  lemma KickedMemberCannotKick(st: State, actor: UserId, groupId: ChatId, target: UserId, other: UserId)
    requires Kick(st, Some(actor), groupId, target).status == 200
    ensures Kick(Kick(st, Some(actor), groupId, target).next, Some(target), groupId, other).status == 403
  {
  }
}

=== FILE: ordered_map.dfy ===
/**
 A JavaScript `Map` as an association list: entries in insertion order, so that
 `forEach` visits them in the order the runtime does. `set` on a present key
 replaces the value where the entry stands, `set` on an absent key appends,
 `delete` removes the entry.
 */
module OrderedMap {
  import opened Wrappers
  import Collections

  type Entries<K, V> = seq<(K, V)>

  /** The set of keys present. */
  function Keys<K, V>(m: Entries<K, V>): (ks: set<K>)
    ensures forall i :: 0 <= i < |m| ==> m[i].0 in ks
    ensures forall k :: k in ks ==> exists i :: 0 <= i < |m| && m[i].0 == k
  {
    if |m| == 0 then {}
    else
      var rest := Keys(m[1..]);
      assert forall k :: k in rest ==> exists i :: 1 <= i < |m| && m[i].0 == k by {
        forall k | k in rest ensures exists i :: 1 <= i < |m| && m[i].0 == k {
          var j :| 0 <= j < |m[1..]| && m[1..][j].0 == k;
          assert m[j + 1].0 == k;
        }
      }
      {m[0].0} + rest
  }

  /** No key occurs in two entries (what a `Map` guarantees). */
  ghost predicate DistinctKeys<K, V>(m: Entries<K, V>) {
    |m| == 0 || (m[0].0 !in Keys(m[1..]) && DistinctKeys(m[1..]))
  }

  /** `map.get(k)`: the value of the first entry with key `k`. */
  function Get<K(==), V>(m: Entries<K, V>, k: K): (r: Option<V>)
    ensures r.Some? <==> k in Keys(m)
    ensures r.Some? ==> (k, r.value) in m
    ensures DistinctKeys(m) ==> forall i :: 0 <= i < |m| && m[i].0 == k ==> r == Some(m[i].1)
  {
    if |m| == 0 then None
    else if m[0].0 == k then Some(m[0].1)
    else Get(m[1..], k)
  }

  /** `map.set(k, v)` leaves every entry under another key where it was found. */
  lemma SetKeepsOthers<K(!new), V>(m: Entries<K, V>, k: K, v: V)
    ensures forall e :: e in m && e.0 != k ==> e in Set(m, k, v)
  {
    if |m| > 0 && m[0].0 != k {
      SetKeepsOthers(m[1..], k, v);
      assert forall e :: e in m ==> e == m[0] || e in m[1..];
    }
  }

  /** `map.set(k, v)`. */
  function Set<K(==,!new), V>(m: Entries<K, V>, k: K, v: V): (r: Entries<K, V>)
    ensures Get(r, k) == Some(v)
    ensures forall j :: j != k ==> Get(r, j) == Get(m, j)
    ensures Keys(r) == Keys(m) + {k}
    ensures |r| == if k in Keys(m) then |m| else |m| + 1
    ensures forall e :: e in r ==> e in m || e == (k, v)
    ensures DistinctKeys(m) ==> DistinctKeys(r)
  {
    if |m| == 0 then [(k, v)]
    else if m[0].0 == k then [(k, v)] + m[1..]
    else [m[0]] + Set(m[1..], k, v)
  }

  /** Setting an absent key appends its entry after all the others. */
  lemma {:induction false} SetAbsentAppends<K(!new), V>(m: Entries<K, V>, k: K, v: V)
    requires k !in Keys(m)
    ensures Set(m, k, v) == m + [(k, v)]
  {
    if |m| > 0 {
      SetAbsentAppends(m[1..], k, v);
      assert Set(m, k, v) == [m[0]] + Set(m[1..], k, v);
      Collections.ConsAppend(m, (k, v));
    }
  }

  /** Setting a present key replaces its entry where it stands: every other
      entry keeps its position. */
  lemma {:induction false} SetInPlace<K(!new), V>(m: Entries<K, V>, k: K, v: V, i: nat)
    requires DistinctKeys(m) && i < |m| && m[i].0 == k
    ensures |Set(m, k, v)| == |m|
    ensures forall j :: 0 <= j < |m| ==> Set(m, k, v)[j] == if j == i then (k, v) else m[j]
  {
    if i == 0 {
      Collections.ConsReplacedHead(m, (k, v));
    } else {
      HeadKeyIsUnique(m, i);
      SetInPlace(m[1..], k, v, i - 1);
      assert Set(m, k, v) == [m[0]] + Set(m[1..], k, v);
      Collections.ConsReplaced(m, Set(m[1..], k, v), i, (k, v));
    }
  }

  /** With distinct keys, no later entry shares the first entry's key. */
  lemma HeadKeyIsUnique<K, V>(m: Entries<K, V>, i: nat)
    requires DistinctKeys(m) && 0 < i < |m|
    ensures m[i].0 != m[0].0
  {
    assert m[i] == m[1..][i - 1];
  }

  /** `map.delete(k)`. */
  function Delete<K(==,!new), V>(m: Entries<K, V>, k: K): (r: Entries<K, V>)
    ensures Get(r, k) == None
    ensures forall j :: j != k ==> Get(r, j) == Get(m, j)
    ensures Keys(r) == Keys(m) - {k}
    ensures forall e :: e in r ==> e in m
    ensures k !in Keys(m) ==> r == m
    ensures DistinctKeys(m) ==> DistinctKeys(r)
    ensures DistinctKeys(m) && k in Keys(m) ==> |r| == |m| - 1
  {
    if |m| == 0 then []
    else if m[0].0 == k then Delete(m[1..], k)
    else [m[0]] + Delete(m[1..], k)
  }

  /** Deleting a key undoes setting it: what remains is what deleting it
      from the original would leave. */
  lemma {:induction false} DeleteAfterSet<K(!new), V>(m: Entries<K, V>, k: K, v: V)
    ensures Delete(Set(m, k, v), k) == Delete(m, k)
  {
    if |m| > 0 && m[0].0 != k {
      DeleteAfterSet(m[1..], k, v);
      assert Set(m, k, v)[1..] == Set(m[1..], k, v);
    } else if |m| > 0 {
      assert Set(m, k, v)[1..] == m[1..];
    }
  }
}

=== FILE: registry.dfy ===
/**
 The connection registry (`wsClients`): `auth` binds the socket to the
 session's user (last bind wins) and announces them online; `close` removes
 the entry of the user the closing socket was bound to, announces them
 offline and tears down their one-to-one calls.
 */
module Registry {
  import opened Wrappers
  import OrderedMap
  import Collections
  import opened Model
  import Calls

  /** `auth`: an unknown token is answered with an error and changes nothing. */
  function Auth(st: State, sock: SocketId, token: Token, now: int): (t: Transition)
    ensures token !in st.sessions ==> t == Transition(st, [Reply(InvalidToken)])
    ensures token in st.sessions ==>
      var u := st.sessions[token];
      && t.next == st.(users := t.next.users, clients := t.next.clients, conns := t.next.conns)
      && OrderedMap.Get(t.next.clients, u) == Some(sock)
      && (forall v :: v != u ==> OrderedMap.Get(t.next.clients, v) == OrderedMap.Get(st.clients, v))
      && t.next.conns == st.conns[sock := u]
      && (u in st.users ==> t.next.users == st.users[u := st.users[u].(online := true, lastActive := now)])
      && (u !in st.users ==> t.next.users == st.users)
      && |t.out| >= 1
      && t.out[0] == Reply(AuthSuccess(if u in st.users then Some(t.next.users[u]) else None))
      && (forall v :: v != u && Reachable(st, v) ==> Push(v, UserOnline(u)) in t.out)
      && (forall v :: v != u ==> (Push(v, UserOnline(u)) in t.out <==> Reachable(t.next, v)))
      && (forall o :: o in t.out[1..] ==> o.Push? && o.to != u && o.ev == UserOnline(u))
  {
    if token !in st.sessions then Transition(st, [Reply(InvalidToken)])
    else
      var u := st.sessions[token];
      var users := if u in st.users then st.users[u := st.users[u].(online := true, lastActive := now)] else st.users;
      var clients := OrderedMap.Set(st.clients, u, sock);
      var conns := st.conns[sock := u];
      var next := st.(users := users, clients := clients, conns := conns);
      var welcome := Reply(AuthSuccess(if u in users then Some(users[u]) else None));
      OthersStayReachable(st.clients, st.conns, u, sock);
      Transition(next, [welcome] + Broadcast(Live(clients, conns), UserOnline(u), Some(u)))
  }

  /** Registering `u` on `sock` takes nobody else's open entry away. */
  lemma OthersStayReachable(clients: OrderedMap.Entries<UserId, SocketId>, conns: map<SocketId, UserId>,
                            u: UserId, sock: SocketId)
    ensures forall v :: v != u && v in OrderedMap.Keys(Live(clients, conns)) ==>
      v in OrderedMap.Keys(Live(OrderedMap.Set(clients, u, sock), conns[sock := u]))
  {
    forall v | v != u && v in OrderedMap.Keys(Live(clients, conns)) {
      OtherStaysReachable(clients, conns, u, sock, v);
    }
  }

  /** `OthersStayReachable` for one user `v`. */
  lemma OtherStaysReachable(clients: OrderedMap.Entries<UserId, SocketId>, conns: map<SocketId, UserId>,
                            u: UserId, sock: SocketId, v: UserId)
    requires v != u && v in OrderedMap.Keys(Live(clients, conns))
    ensures v in OrderedMap.Keys(Live(OrderedMap.Set(clients, u, sock), conns[sock := u]))
  {
    var before := Live(clients, conns);
    var i :| 0 <= i < |before| && before[i].0 == v;
    var e := before[i];
    assert e in clients && e.1 in conns;
    var rebound := OrderedMap.Set(clients, u, sock);
    OrderedMap.SetKeepsOthers(clients, u, sock);
    assert e in rebound;
    var after := Live(rebound, conns[sock := u]);
    assert e in after;
    var j :| 0 <= j < |after| && after[j] == e;
  }

  /** `close`: the socket is marked closed; the registry entry removed is keyed
      by the user the socket was bound to, not by the socket, so closing a
      superseded socket also drops its user's newer binding. */
  function Close(st: State, sock: SocketId): (t: Transition)
    ensures sock !in st.conns ==> t == Transition(st.(closed := st.closed + {sock}), [])
    ensures sock in st.conns ==>
      var u := st.conns[sock];
      && t.next == st.(users := t.next.users, clients := t.next.clients, calls := t.next.calls, conns := t.next.conns,
                       closed := st.closed + {sock})
      && !Registered(t.next, u)
      && (forall v :: v != u ==> OrderedMap.Get(t.next.clients, v) == OrderedMap.Get(st.clients, v))
      && t.next.conns == st.conns - {sock}
      && (u in st.users ==> t.next.users == st.users[u := st.users[u].(online := false)])
      && (u !in st.users ==> t.next.users == st.users)
      && (forall v :: Reachable(t.next, v) ==> Push(v, UserOffline(u)) in t.out)
      && (forall o :: o in t.out ==> o.Push? && ((o.ev == UserOffline(u) && Reachable(t.next, o.to)) || o.ev.CallEnded?))
      && (forall i :: 0 <= i < |t.next.calls| ==> !Calls.Involves(t.next.calls[i].1, u))
      && (forall e :: e in t.next.calls <==> e in st.calls && !Calls.Involves(e.1, u))
  {
    if sock !in st.conns then Transition(st.(closed := st.closed + {sock}), [])
    else
      var u := st.conns[sock];
      var users := if u in st.users then st.users[u := st.users[u].(online := false)] else st.users;
      var clients := OrderedMap.Delete(st.clients, u);
      var live := Live(clients, st.conns - {sock});
      var sweep := Calls.EndCallsOf(st.calls, u, live);
      var next := st.(users := users, clients := clients, calls := sweep.kept, conns := st.conns - {sock},
                      closed := st.closed + {sock});
      Transition(next, Broadcast(live, UserOffline(u), None) + sweep.out)
  }

  /** Every one-to-one call of the closing user is ended exactly once towards
      its other party, when that party still has an open socket once the close
      is done; nobody hears of it twice, and a self-call is not announced to the
      departing user. */
  lemma CloseEndsEachCallOnce(st: State, sock: SocketId)
    requires sock in st.conns && OrderedMap.DistinctKeys(st.calls)
    ensures
      var u := st.conns[sock];
      var t := Close(st, sock);
      forall i :: 0 <= i < |st.calls| && Calls.Involves(st.calls[i].1, u) ==>
        var other := Calls.Counterpart(st.calls[i].1, u);
        multiset(t.out)[Push(other, CallEnded(st.calls[i].0))] ==
          if other != u && Reachable(t.next, other) then 1 else 0
  {
    var u := st.conns[sock];
    var clients := OrderedMap.Delete(st.clients, u);
    var live := Live(clients, st.conns - {sock});
    var sweep := Calls.EndCallsOf(st.calls, u, live);
    var offline := Broadcast(live, UserOffline(u), None);
    assert Close(st, sock).out == offline + sweep.out;
    LiveKeys(clients, st.conns - {sock});
    Calls.EndCallsOfNotifiesOnce(st.calls, u, live);
    forall i | 0 <= i < |st.calls| && Calls.Involves(st.calls[i].1, u)
      ensures multiset(offline)[Push(Calls.Counterpart(st.calls[i].1, u), CallEnded(st.calls[i].0))] == 0
    {
      var o := Push(Calls.Counterpart(st.calls[i].1, u), CallEnded(st.calls[i].0));
      assert o !in offline;
    }
  }

  /** With distinct registry keys, `close` tells each user still reachable
      afterwards of the departure exactly once, and nobody else. */
  lemma CloseNotifiesOfflineOnce(st: State, sock: SocketId)
    requires sock in st.conns && OrderedMap.DistinctKeys(st.clients)
    ensures
      var u := st.conns[sock];
      var t := Close(st, sock);
      forall v :: multiset(t.out)[Push(v, UserOffline(u))] == if Reachable(t.next, v) then 1 else 0
  {
    var u := st.conns[sock];
    var clients := OrderedMap.Delete(st.clients, u);
    var live := Live(clients, st.conns - {sock});
    var sweep := Calls.EndCallsOf(st.calls, u, live);
    var offline := Broadcast(live, UserOffline(u), None);
    assert Close(st, sock).out == offline + sweep.out;
    LiveKeys(clients, st.conns - {sock});
    forall v ensures multiset(sweep.out)[Push(v, UserOffline(u))] == 0 {
      assert Push(v, UserOffline(u)) !in sweep.out;
    }
    forall v ensures multiset(offline)[Push(v, UserOffline(u))] == if v in OrderedMap.Keys(live) then 1 else 0 {
      SendToAgreesWithBroadcast(live, v, UserOffline(u));
    }
  }

  /** Re-authenticating the same user on a second socket rebinds the user to
      it and leaves the first socket bound too. */
  lemma ReauthRebinds(st: State, s1: SocketId, s2: SocketId, token: Token, now: int)
    requires token in st.sessions
    ensures
      var u := st.sessions[token];
      var second := Auth(Auth(st, s1, token, now).next, s2, token, now).next;
      && OrderedMap.Get(second.clients, u) == Some(s2)
      && second.conns == st.conns[s1 := u][s2 := u]
  {
    var first := Auth(st, s1, token, now).next;
    assert first.sessions == st.sessions;
  }

  /** The registry is keyed by user, not by socket: when two open sockets are
      bound to the same user (the second after `ReauthRebinds`), closing either
      one unregisters the user, although the other is still open and bound. */
  lemma ClosingOneOfTwoSocketsUnregisters(st: State, s1: SocketId, s2: SocketId)
    requires s1 in st.conns && s2 in st.conns && s1 != s2 && st.conns[s1] == st.conns[s2]
    ensures
      var closed := Close(st, s1).next;
      && !Registered(closed, st.conns[s2])
      && s2 in closed.conns && closed.conns[s2] == st.conns[s2]
  {
  }

  /** `close` undoes `auth` on a fresh socket of a user who was not
      registered: the registry and the socket bindings are as before, and the
      user is offline. */
  lemma AuthThenCloseRestoresRegistry(st: State, sock: SocketId, token: Token, now: int)
    requires token in st.sessions && sock !in st.conns && !Registered(st, st.sessions[token])
    ensures
      var u := st.sessions[token];
      var closed := Close(Auth(st, sock, token, now).next, sock).next;
      && closed.clients == st.clients
      && closed.conns == st.conns
      && (u in st.users ==> closed.users[u] == st.users[u].(online := false, lastActive := now))
  {
    var u := st.sessions[token];
    OrderedMap.DeleteAfterSet(st.clients, u, sock);
    Collections.AddThenRemove(st.conns, sock, u);
  }

  /** One socket authenticated first as `a`, then as `b`, then closed: the
      close removes `b`'s entry only, so `a` stays registered on the closed
      socket. `start_call` towards `a` then passes its `wsClients.has` guard,
      while every delivery to `a` is skipped because the socket is not open. */
  lemma SocketReusedLeavesStaleEntry(st: State, sock: SocketId, ta: Token, tb: Token, now: int)
    requires ta in st.sessions && tb in st.sessions && st.sessions[ta] != st.sessions[tb]
    requires OrderedMap.DistinctKeys(st.clients)
    ensures
      var a := st.sessions[ta];
      var closed := Close(Auth(Auth(st, sock, ta, now).next, sock, tb, now).next, sock).next;
      && OrderedMap.Get(closed.clients, a) == Some(sock)
      && Registered(closed, a)
      && !Reachable(closed, a)
  {
    var a := st.sessions[ta];
    var first := Auth(st, sock, ta, now).next;
    assert first.sessions == st.sessions;
    var second := Auth(first, sock, tb, now).next;
    assert OrderedMap.Get(second.clients, a) == Some(sock);
    assert second.conns[sock] == st.sessions[tb];
    var closed := Close(second, sock).next;
    assert OrderedMap.Get(closed.clients, a) == Some(sock);
    assert sock !in closed.conns;
    LiveIsGetThenOpen(closed.clients, closed.conns, a);
  }
}

=== FILE: router.dfy ===
/**
 Message routing (`send_message`): the conversation is looked up as a group
 first and as a private chat second, the sender must be a member or a
 participant, the message is appended to that conversation's history and
 delivered to every reachable member; a private-chat message also advances
 the sender's experience counter.
 */
module Router {
  import opened Wrappers
  import OrderedMap
  import opened Model

  /** Where a message is routed. */
  datatype Route = ToGroup(group: Group) | ToChat(chat: Chat) | Rejected

  /** The lookup order of `send_message`: a group with this id takes
      precedence over a private chat, and its membership guard decides alone. */
  function Resolve(st: State, u: UserId, chatId: ChatId): (r: Route)
    ensures chatId in st.groups ==> !r.ToChat? && (r.ToGroup? <==> u in st.groups[chatId].members)
    ensures chatId !in st.groups ==> !r.ToGroup? && (r.ToChat? <==> chatId in st.chats && u in st.chats[chatId].participants)
    ensures r.ToGroup? ==> r.group == st.groups[chatId]
    ensures r.ToChat? ==> r.chat == st.chats[chatId]
  {
    if chatId in st.groups then
      if u in st.groups[chatId].members then ToGroup(st.groups[chatId]) else Rejected
    else if chatId in st.chats && u in st.chats[chatId].participants then ToChat(st.chats[chatId])
    else Rejected
  }

  /** The level a level-up counts from (`user.level || 1`). */
  function BaseLevel(level: int): int {
    if level == 0 then 1 else level
  }

  /** Whether one more message brings the counter to the threshold `level × 100`. */
  predicate ReachesThreshold(u: User) {
    u.xp + 1 >= u.level * 100
  }

  /** The experience step of one private-chat message: the counter grows by one;
      at the threshold the level goes up, the counter resets and the balance
      grows by ten times the new level. */
  function AwardXp(u: User): (r: User)
    ensures r.(xp := u.xp, level := u.level, balance := u.balance) == u
    ensures !ReachesThreshold(u) ==> r.xp == u.xp + 1 && r.level == u.level && r.balance == u.balance
    ensures ReachesThreshold(u) ==> r.xp == 0 && r.level == BaseLevel(u.level) + 1 && r.balance == u.balance + 10 * r.level
  {
    var gained := u.(xp := u.xp + 1);
    if gained.xp >= gained.level * 100 then
      var level := BaseLevel(gained.level) + 1;
      gained.(level := level, xp := 0, balance := gained.balance + level * 10)
    else gained
  }

  /** The history of `chatId` with `msg` appended (the `messages[chatId]`
      push); every other history is untouched. */
  function Append(st: State, chatId: ChatId, msg: Message): (s: State)
    ensures s == st.(messages := s.messages)
    ensures chatId in s.messages
    ensures |s.messages[chatId]| == |History(st, chatId)| + 1
    ensures s.messages[chatId][..|History(st, chatId)|] == History(st, chatId)
    ensures s.messages[chatId][|History(st, chatId)|] == msg
    ensures forall c :: c != chatId ==> History(s, c) == History(st, c)
  {
    st.(messages := st.messages[chatId := History(st, chatId) + [msg]])
  }

  /** `send_message`. The message id and the clock reading are supplied by the caller. */
  function SendMessage(st: State, sock: SocketId, chatId: ChatId, payload: Payload, msgId: MessageId, now: int): (t: Transition)
    ensures sock !in st.conns ==> t == Transition(st, [])
    ensures sock in st.conns && Resolve(st, st.conns[sock], chatId).Rejected? ==> t == Transition(st, [])
    ensures sock in st.conns && !Resolve(st, st.conns[sock], chatId).Rejected? ==>
      t.next == Append(st, chatId, Message(msgId, st.conns[sock], payload, now)).(users := t.next.users)
    ensures sock in st.conns && Resolve(st, st.conns[sock], chatId).ToGroup? ==>
      var members := st.groups[chatId].members;
      var ev := NewMessage(chatId, true, Message(msgId, st.conns[sock], payload, now));
      && t.next.users == st.users
      && (forall o :: o in t.out ==> o.Push? && o.ev == ev && o.to in members)
      && (forall m :: multiset(t.out)[Push(m, ev)] == if Reachable(st, m) then multiset(members)[m] else 0)
    ensures sock in st.conns && Resolve(st, st.conns[sock], chatId).ToChat? && st.conns[sock] !in st.users ==>
      t.next.users == st.users && t.out == []
    ensures sock in st.conns && Resolve(st, st.conns[sock], chatId).ToChat? && st.conns[sock] in st.users ==>
      var u := st.conns[sock];
      var parts := st.chats[chatId].participants;
      var ev := NewMessage(chatId, false, Message(msgId, u, payload, now));
      var notices := if ReachesThreshold(st.users[u]) then 1 else 0;
      && t.next.users == st.users[u := AwardXp(st.users[u])]
      && |t.out| >= notices
      && (ReachesThreshold(st.users[u]) ==>
            var lvl := t.next.users[u].level;
            t.out[0] == Reply(LevelUp(lvl, lvl * 10)))
      && (forall o :: o in t.out[notices..] ==> o.Push? && o.ev == ev && o.to in parts)
      && (forall m :: multiset(t.out[notices..])[Push(m, ev)] == if Reachable(st, m) then multiset(parts)[m] else 0)
  {
    if sock !in st.conns then Transition(st, [])
    else
      var u := st.conns[sock];
      var msg := Message(msgId, u, payload, now);
      var appended := Append(st, chatId, msg);
      match Resolve(st, u, chatId)
      case Rejected => Transition(st, [])
      case ToGroup(g) =>
        Transition(appended, Notify(Live(st.clients, st.conns), g.members, NewMessage(chatId, true, msg)))
      case ToChat(c) =>
        if u !in st.users then
          // `user.xp` throws on a missing sender record after the append.
          Transition(appended, [])
        else
          var user := AwardXp(st.users[u]);
          var levelUp := if ReachesThreshold(st.users[u]) then [Reply(LevelUp(user.level, user.level * 10))] else [];
          var fanOut := Notify(Live(st.clients, st.conns), c.participants, NewMessage(chatId, false, msg));
          assert (levelUp + fanOut)[|levelUp|..] == fanOut;
          Transition(appended.(users := st.users[u := user]), levelUp + fanOut)
  }

  /** The user record after `n` private-chat messages. */
  function AwardXpTimes(u: User, n: nat): User {
    if n == 0 then u else AwardXp(AwardXpTimes(u, n - 1))
  }

  /** Below the threshold a message only advances the counter. */
  lemma {:induction false} BelowThresholdOnlyCounts(u: User, n: nat)
    requires u.xp + n < u.level * 100
    ensures AwardXpTimes(u, n) == u.(xp := u.xp + n)
  {
    if n > 0 {
      BelowThresholdOnlyCounts(u, n - 1);
      assert !ReachesThreshold(AwardXpTimes(u, n - 1));
    }
  }

  /** From a fresh counter at level `L ≥ 1`, the `L × 100`-th message (and no
      earlier one) raises the level to `L + 1`, resets the counter and grants
      `(L + 1) × 10`; at level 1 that is 100 messages and a bonus of 20. */
  lemma LevelUpAfterLevelTimesHundred(u: User)
    requires u.level >= 1 && u.xp == 0
    ensures forall n: nat :: n < u.level * 100 ==> AwardXpTimes(u, n).level == u.level
    ensures AwardXpTimes(u, u.level * 100) ==
      u.(level := u.level + 1, xp := 0, balance := u.balance + 10 * (u.level + 1))
  {
    forall n: nat | n < u.level * 100 ensures AwardXpTimes(u, n).level == u.level {
      BelowThresholdOnlyCounts(u, n);
    }
    BelowThresholdOnlyCounts(u, u.level * 100 - 1);
  }

  /** Within one conversation creation times never decrease. */
  ghost predicate Chronological(h: seq<Message>) {
    forall i, j :: 0 <= i < j < |h| ==> h[i].createdAt <= h[j].createdAt
  }

  /** Appending with a clock that has not gone back keeps a history chronological. */
  lemma SendMessageKeepsChronology(st: State, sock: SocketId, chatId: ChatId, payload: Payload, id: MessageId, now: int)
    requires Chronological(History(st, chatId))
    requires forall i :: 0 <= i < |History(st, chatId)| ==> History(st, chatId)[i].createdAt <= now
    ensures Chronological(History(SendMessage(st, sock, chatId, payload, id, now).next, chatId))
  {
  }

  /** An admitted message lands at the end of its chat's history, and the
      routing decision for the next message on the same chat is unchanged. */
  lemma SendAppendsOne(st: State, sock: SocketId, chatId: ChatId, payload: Payload, id: MessageId, now: int)
    requires sock in st.conns && !Resolve(st, st.conns[sock], chatId).Rejected?
    ensures
      var next := SendMessage(st, sock, chatId, payload, id, now).next;
      && History(next, chatId) == History(st, chatId) + [Message(id, st.conns[sock], payload, now)]
      && next.conns == st.conns
      && Resolve(next, st.conns[sock], chatId) == Resolve(st, st.conns[sock], chatId)
  {
    var next := SendMessage(st, sock, chatId, payload, id, now).next;
    var h := History(st, chatId);
    assert History(next, chatId)[..|h|] == h;
  }

  /** Two messages sent in turn by an admitted sender are stored in the order
      they were sent, after everything stored before, with their sender,
      payload and timestamp intact. */
  lemma SendTwiceAppendsInOrder(st: State, sock: SocketId, chatId: ChatId,
                                p1: Payload, id1: MessageId, t1: int, p2: Payload, id2: MessageId, t2: int)
    requires sock in st.conns && !Resolve(st, st.conns[sock], chatId).Rejected?
    ensures
      var first := SendMessage(st, sock, chatId, p1, id1, t1);
      var second := SendMessage(first.next, sock, chatId, p2, id2, t2);
      var u := st.conns[sock];
      History(second.next, chatId) == History(st, chatId) + [Message(id1, u, p1, t1), Message(id2, u, p2, t2)]
  {
    var first := SendMessage(st, sock, chatId, p1, id1, t1);
    SendAppendsOne(st, sock, chatId, p1, id1, t1);
    SendAppendsOne(first.next, sock, chatId, p2, id2, t2);
  }
}

=== FILE: server.dfy ===
/**
 The WebSocket dispatcher and the group endpoints as one transition system,
 the invariant every transition keeps, and properties that relate several
 transitions.
 */
module Server {
  import opened Wrappers
  import OrderedMap
  import opened Model
  import Registry
  import Router
  import Calls
  import GroupCalls
  import Groups

  /** A frame received on a socket, by its `type` tag, or the socket closing. */
  datatype Input =
    | Auth(token: Token)
    | SendMessage(chatId: ChatId, payload: Payload)
    | StartGroupCall(groupId: ChatId)
    | JoinGroupCall(groupId: ChatId)
    | LeaveGroupCall(groupId: ChatId)
    | GroupRtc(kind: RtcKind, target: UserId, signal: Signal)
    | StartCall(to: UserId)
    | AcceptCall(callId: CallId)
    | EndCall(callId: CallId)
    | Rtc(kind: RtcKind, callId: CallId, signal: Signal)
    | Close

  /** An HTTP request to one of the group membership endpoints. */
  datatype Request =
    | Leave(groupId: ChatId)
    | KickMember(groupId: ChatId, target: UserId)
    | Admin(groupId: ChatId, target: UserId, isAdmin: bool)

  /** No closed socket is bound: what lets `Model.Live` read "bound in
      `conns`" as "open". */
  predicate ClosedUnbound(st: State) {
    forall s :: s in st.closed ==> s !in st.conns
  }

  /** Handles one input on socket `sock`; `id` is the fresh id the input may
      need and `now` the clock reading. A socket whose close event has fired
      receives nothing more: a new connection is a new socket. */
  function Step(st: State, sock: SocketId, input: Input, id: string, now: int): Transition {
    if sock in st.closed then Transition(st, [])
    else match input
    case Auth(token) => Registry.Auth(st, sock, token, now)
    case SendMessage(chatId, payload) => Router.SendMessage(st, sock, chatId, payload, id, now)
    case StartGroupCall(groupId) => GroupCalls.StartGroupCall(st, sock, groupId, id, now)
    case JoinGroupCall(groupId) => GroupCalls.JoinGroupCall(st, sock, groupId)
    case LeaveGroupCall(groupId) => GroupCalls.LeaveGroupCall(st, sock, groupId)
    case GroupRtc(kind, target, signal) => GroupCalls.GroupRelay(st, sock, kind, target, signal)
    case StartCall(to) => Calls.StartCall(st, sock, to, id, now)
    case AcceptCall(callId) => Calls.AcceptCall(st, sock, callId)
    case EndCall(callId) => Calls.EndCall(st, sock, callId)
    case Rtc(kind, callId, signal) => Calls.Relay(st, sock, kind, callId, signal)
    case Close => Registry.Close(st, sock)
  }

  /** Handles one group request from `actor`. */
  function Serve(st: State, actor: Option<UserId>, req: Request): Groups.HttpResult {
    match req
    case Leave(groupId) => Groups.LeaveGroup(st, actor, groupId)
    case KickMember(groupId, target) => Groups.Kick(st, actor, groupId, target)
    case Admin(groupId, target, isAdmin) => Groups.SetAdmin(st, actor, groupId, target, isAdmin)
  }

  /** A stored group call belongs to its key, is non-empty and lists nobody twice. */
  ghost predicate RosterOk(gc: GroupCall, groupId: ChatId) {
    gc.groupId == groupId && |gc.participants| > 0 && NoDup(gc.participants)
  }

  /** A group's owner is one of its members, listed once. */
  ghost predicate GroupOk(g: Group) {
    g.ownerId in g.members && NoDup(g.members)
  }

  /** What the handlers keep true of the state. */
  ghost predicate Valid(st: State) {
    && OrderedMap.DistinctKeys(st.clients)
    && OrderedMap.DistinctKeys(st.calls)
    && (forall e :: e in st.calls ==> e.1.id == e.0)
    && (forall g :: g in st.groupCalls ==> RosterOk(st.groupCalls[g], g))
    && (forall g :: g in st.groups ==> GroupOk(st.groups[g]))
  }

  lemma AuthPreservesValid(st: State, sock: SocketId, token: Token, now: int)
    requires Valid(st)
    ensures Valid(Registry.Auth(st, sock, token, now).next)
  {
  }

  lemma ClosePreservesValid(st: State, sock: SocketId)
    requires Valid(st)
    ensures Valid(Registry.Close(st, sock).next)
  {
  }

  lemma SendMessagePreservesValid(st: State, sock: SocketId, chatId: ChatId, payload: Payload, id: MessageId, now: int)
    requires Valid(st)
    ensures Valid(Router.SendMessage(st, sock, chatId, payload, id, now).next)
  {
  }

  /** Storing one well-formed roster keeps the state valid. */
  lemma StoreRosterPreservesValid(st: State, groupId: ChatId, gc: GroupCall)
    requires Valid(st) && RosterOk(gc, groupId)
    ensures Valid(st.(groupCalls := st.groupCalls[groupId := gc]))
  {
  }

  lemma StartGroupCallPreservesValid(st: State, sock: SocketId, groupId: ChatId, id: CallId, now: int)
    requires Valid(st)
    ensures Valid(GroupCalls.StartGroupCall(st, sock, groupId, id, now).next)
  {
    var t := GroupCalls.StartGroupCall(st, sock, groupId, id, now);
    if sock in st.conns && groupId in st.groups && st.conns[sock] in st.groups[groupId].members {
      var gc := t.next.groupCalls[groupId];
      assert t.next == st.(groupCalls := st.groupCalls[groupId := gc]);
      StoreRosterPreservesValid(st, groupId, gc);
    }
  }

  lemma JoinGroupCallPreservesValid(st: State, sock: SocketId, groupId: ChatId)
    requires Valid(st)
    ensures Valid(GroupCalls.JoinGroupCall(st, sock, groupId).next)
  {
    var t := GroupCalls.JoinGroupCall(st, sock, groupId);
    if sock in st.conns && groupId in st.groupCalls && groupId in st.groups {
      var gc := t.next.groupCalls[groupId];
      assert t.next == st.(groupCalls := st.groupCalls[groupId := gc]);
      StoreRosterPreservesValid(st, groupId, gc);
    }
  }

  lemma LeaveGroupCallPreservesValid(st: State, sock: SocketId, groupId: ChatId)
    requires Valid(st)
    ensures Valid(GroupCalls.LeaveGroupCall(st, sock, groupId).next)
  {
    var t := GroupCalls.LeaveGroupCall(st, sock, groupId);
    if sock in st.conns && groupId in st.groupCalls && groupId in st.groups {
      if groupId in t.next.groupCalls {
        var gc := t.next.groupCalls[groupId];
        assert forall x :: multiset(gc.participants)[x] <= multiset(st.groupCalls[groupId].participants)[x];
        assert t.next == st.(groupCalls := st.groupCalls[groupId := gc]);
        StoreRosterPreservesValid(st, groupId, gc);
      } else {
        assert t.next == st.(groupCalls := st.groupCalls - {groupId});
      }
    }
  }

  lemma StartCallPreservesValid(st: State, sock: SocketId, to: UserId, id: CallId, now: int)
    requires Valid(st)
    ensures Valid(Calls.StartCall(st, sock, to, id, now).next)
  {
  }

  lemma AcceptCallPreservesValid(st: State, sock: SocketId, callId: CallId)
    requires Valid(st)
    ensures Valid(Calls.AcceptCall(st, sock, callId).next)
  {
    if sock in st.conns && OrderedMap.Get(st.calls, callId).Some? {
      var c := OrderedMap.Get(st.calls, callId).value;
      assert (callId, c) in st.calls;
    }
  }

  lemma EndCallPreservesValid(st: State, sock: SocketId, callId: CallId)
    requires Valid(st)
    ensures Valid(Calls.EndCall(st, sock, callId).next)
  {
  }

  /** Every input keeps the invariant. */
  lemma StepPreservesValid(st: State, sock: SocketId, input: Input, id: string, now: int)
    requires Valid(st)
    ensures Valid(Step(st, sock, input, id, now).next)
  {
    match input
    case Auth(token) => AuthPreservesValid(st, sock, token, now);
    case SendMessage(chatId, payload) => SendMessagePreservesValid(st, sock, chatId, payload, id, now);
    case StartGroupCall(groupId) => StartGroupCallPreservesValid(st, sock, groupId, id, now);
    case JoinGroupCall(groupId) => JoinGroupCallPreservesValid(st, sock, groupId);
    case LeaveGroupCall(groupId) => LeaveGroupCallPreservesValid(st, sock, groupId);
    case GroupRtc(kind, target, signal) =>
    case StartCall(to) => StartCallPreservesValid(st, sock, to, id, now);
    case AcceptCall(callId) => AcceptCallPreservesValid(st, sock, callId);
    case EndCall(callId) => EndCallPreservesValid(st, sock, callId);
    case Rtc(kind, callId, signal) =>
    case Close => ClosePreservesValid(st, sock);
  }

  /** On a socket that has not closed, `auth` and `close` go to their handlers. */
  lemma StepOnOpenSocket(st: State, sock: SocketId, input: Input, id: string, now: int)
    requires sock !in st.closed && (input.Auth? || input.Close?)
    ensures input.Auth? ==> Step(st, sock, input, id, now) == Registry.Auth(st, sock, input.token, now)
    ensures input.Close? ==> Step(st, sock, input, id, now) == Registry.Close(st, sock)
  {
  }

  /** `auth` binds only a socket that has not closed. */
  lemma AuthKeepsClosedUnbound(st: State, sock: SocketId, input: Input, id: string, now: int)
    requires ClosedUnbound(st) && input.Auth?
    ensures var next := Step(st, sock, input, id, now).next;
      st.closed <= next.closed && ClosedUnbound(next)
  {
    if sock !in st.closed {
      StepOnOpenSocket(st, sock, input, id, now);
      var next := Registry.Auth(st, sock, input.token, now).next;
      assert next.closed == st.closed && next.conns.Keys <= st.conns.Keys + {sock};
    }
  }

  /** `close` unbinds the socket it closes. */
  lemma CloseKeepsClosedUnbound(st: State, sock: SocketId, input: Input, id: string, now: int)
    requires ClosedUnbound(st) && input.Close?
    ensures var next := Step(st, sock, input, id, now).next;
      st.closed <= next.closed && ClosedUnbound(next)
  {
    if sock !in st.closed {
      StepOnOpenSocket(st, sock, input, id, now);
      var next := Registry.Close(st, sock).next;
      assert next.closed == st.closed + {sock} && next.conns.Keys <= st.conns.Keys - {sock};
    }
  }

  /** Two states agree on which sockets are bound, to whom, and which have closed. */
  predicate SameSockets(st: State, next: State) {
    next.conns == st.conns && next.closed == st.closed
  }

  /** `send_message` leaves the socket bindings alone. */
  lemma SendMessageKeepsSockets(st: State, sock: SocketId, input: Input, id: string, now: int)
    requires input.SendMessage?
    ensures SameSockets(st, Step(st, sock, input, id, now).next)
  {
    if sock !in st.closed {
      var SendMessage(chatId, payload) := input;
      var t := Router.SendMessage(st, sock, chatId, payload, id, now);
      assert Step(st, sock, input, id, now) == t;
      assert SameSockets(st, t.next);
    }
  }

  /** `start_call` leaves the socket bindings alone. */
  lemma StartCallKeepsSockets(st: State, sock: SocketId, input: Input, id: string, now: int)
    requires input.StartCall?
    ensures SameSockets(st, Step(st, sock, input, id, now).next)
  {
    if sock !in st.closed {
      var StartCall(to) := input;
      var t := Calls.StartCall(st, sock, to, id, now);
      assert Step(st, sock, input, id, now) == t;
      assert SameSockets(st, t.next);
    }
  }

  /** `accept_call` leaves the socket bindings alone. */
  lemma AcceptCallKeepsSockets(st: State, sock: SocketId, input: Input, id: string, now: int)
    requires input.AcceptCall?
    ensures SameSockets(st, Step(st, sock, input, id, now).next)
  {
    if sock !in st.closed {
      var AcceptCall(callId) := input;
      var t := Calls.AcceptCall(st, sock, callId);
      assert Step(st, sock, input, id, now) == t;
      assert SameSockets(st, t.next);
    }
  }

  /** `end_call` leaves the socket bindings alone. */
  lemma EndCallKeepsSockets(st: State, sock: SocketId, input: Input, id: string, now: int)
    requires input.EndCall?
    ensures SameSockets(st, Step(st, sock, input, id, now).next)
  {
    if sock !in st.closed {
      var EndCall(callId) := input;
      var t := Calls.EndCall(st, sock, callId);
      assert Step(st, sock, input, id, now) == t;
      assert SameSockets(st, t.next);
    }
  }

  /** `start_group_call` leaves the socket bindings alone. */
  lemma StartGroupCallKeepsSockets(st: State, sock: SocketId, input: Input, id: string, now: int)
    requires input.StartGroupCall?
    ensures SameSockets(st, Step(st, sock, input, id, now).next)
  {
    if sock !in st.closed {
      var StartGroupCall(groupId) := input;
      var t := GroupCalls.StartGroupCall(st, sock, groupId, id, now);
      assert Step(st, sock, input, id, now) == t;
      assert SameSockets(st, t.next);
    }
  }

  /** `join_group_call` leaves the socket bindings alone. */
  lemma JoinGroupCallKeepsSockets(st: State, sock: SocketId, input: Input, id: string, now: int)
    requires input.JoinGroupCall?
    ensures SameSockets(st, Step(st, sock, input, id, now).next)
  {
    if sock !in st.closed {
      var JoinGroupCall(groupId) := input;
      var t := GroupCalls.JoinGroupCall(st, sock, groupId);
      assert Step(st, sock, input, id, now) == t;
      assert SameSockets(st, t.next);
    }
  }

  /** `leave_group_call` leaves the socket bindings alone. */
  lemma LeaveGroupCallKeepsSockets(st: State, sock: SocketId, input: Input, id: string, now: int)
    requires input.LeaveGroupCall?
    ensures SameSockets(st, Step(st, sock, input, id, now).next)
  {
    if sock !in st.closed {
      var LeaveGroupCall(groupId) := input;
      var t := GroupCalls.LeaveGroupCall(st, sock, groupId);
      assert Step(st, sock, input, id, now) == t;
      assert SameSockets(st, t.next);
    }
  }

  /** Once a socket has closed it stays closed and unbound, whatever input
      arrives next on any socket. */
  lemma StepKeepsClosedUnbound(st: State, sock: SocketId, input: Input, id: string, now: int)
    requires ClosedUnbound(st)
    ensures var next := Step(st, sock, input, id, now).next;
      st.closed <= next.closed && ClosedUnbound(next)
  {
    match input
    case Auth(_) => AuthKeepsClosedUnbound(st, sock, input, id, now);
    case Close => CloseKeepsClosedUnbound(st, sock, input, id, now);
    case SendMessage(_, _) => SendMessageKeepsSockets(st, sock, input, id, now);
    case StartCall(_) => StartCallKeepsSockets(st, sock, input, id, now);
    case AcceptCall(_) => AcceptCallKeepsSockets(st, sock, input, id, now);
    case EndCall(_) => EndCallKeepsSockets(st, sock, input, id, now);
    case StartGroupCall(_) => StartGroupCallKeepsSockets(st, sock, input, id, now);
    case JoinGroupCall(_) => JoinGroupCallKeepsSockets(st, sock, input, id, now);
    case LeaveGroupCall(_) => LeaveGroupCallKeepsSockets(st, sock, input, id, now);
    case GroupRtc(_, _, _) =>
    case Rtc(_, _, _) =>
  }

  /** One socket authenticates as `a`, then as `b`, then closes, and an `auth`
      for `c` then arrives on the same socket id. The closed socket takes no
      more input, so `a` stays registered on it without becoming reachable
      again. */
  lemma ReusedSocketStaysClosed(st: State, sock: SocketId, ta: Token, tb: Token, tc: Token, id: string, now: int)
    requires ta in st.sessions && tb in st.sessions && st.sessions[ta] != st.sessions[tb]
    requires OrderedMap.DistinctKeys(st.clients) && sock !in st.closed
    ensures
      var a := st.sessions[ta];
      var first := Step(st, sock, Auth(ta), id, now).next;
      var second := Step(first, sock, Auth(tb), id, now).next;
      var closed := Step(second, sock, Close, id, now).next;
      var again := Step(closed, sock, Auth(tc), id, now);
      && again == Transition(closed, [])
      && Registered(again.next, a)
      && !Reachable(again.next, a)
  {
    var first := Registry.Auth(st, sock, ta, now).next;
    StepOnOpenSocket(st, sock, Auth(ta), id, now);
    assert first.closed == st.closed && first.sessions == st.sessions;
    var second := Registry.Auth(first, sock, tb, now).next;
    StepOnOpenSocket(first, sock, Auth(tb), id, now);
    assert second.closed == st.closed;
    var closed := Registry.Close(second, sock).next;
    StepOnOpenSocket(second, sock, Close, id, now);
    assert sock in closed.closed;
    Registry.SocketReusedLeavesStaleEntry(st, sock, ta, tb, now);
  }

  /** Filtering one user out of a list with no duplicates keeps everybody else. */
  lemma FilterKeepsOthers(before: seq<UserId>, after: seq<UserId>, gone: UserId, owner: UserId)
    requires NoDup(before) && owner in before && owner != gone
    requires forall p :: p != gone ==> multiset(after)[p] == multiset(before)[p]
    requires gone !in after
    ensures NoDup(after) && owner in after
  {
    assert multiset(after)[owner] == multiset(before)[owner];
    forall x ensures multiset(after)[x] <= 1 {
      if x != gone { assert multiset(after)[x] == multiset(before)[x]; }
    }
  }

  lemma LeaveGroupPreservesValid(st: State, actor: Option<UserId>, groupId: ChatId)
    requires Valid(st)
    ensures Valid(Groups.LeaveGroup(st, actor, groupId).next)
  {
    var r := Groups.LeaveGroup(st, actor, groupId);
    if r.status == 200 {
      var g := st.groups[groupId];
      FilterKeepsOthers(g.members, r.next.groups[groupId].members, actor.value, g.ownerId);
      assert GroupOk(r.next.groups[groupId]);
    }
  }

  lemma KickPreservesValid(st: State, actor: Option<UserId>, groupId: ChatId, target: UserId)
    requires Valid(st)
    ensures Valid(Groups.Kick(st, actor, groupId, target).next)
  {
    var r := Groups.Kick(st, actor, groupId, target);
    if r.status == 200 {
      var g := st.groups[groupId];
      FilterKeepsOthers(g.members, r.next.groups[groupId].members, target, g.ownerId);
      assert GroupOk(r.next.groups[groupId]);
    }
  }

  lemma SetAdminPreservesValid(st: State, actor: Option<UserId>, groupId: ChatId, target: UserId, isAdmin: bool)
    requires Valid(st)
    ensures Valid(Groups.SetAdmin(st, actor, groupId, target, isAdmin).next)
  {
  }

  /** Every group request keeps the invariant; in particular no request removes an owner. */
  lemma ServePreservesValid(st: State, actor: Option<UserId>, req: Request)
    requires Valid(st)
    ensures Valid(Serve(st, actor, req).next)
  {
    match req
    case Leave(groupId) => LeaveGroupPreservesValid(st, actor, groupId);
    case KickMember(groupId, target) => KickPreservesValid(st, actor, groupId, target);
    case Admin(groupId, target, isAdmin) => SetAdminPreservesValid(st, actor, groupId, target, isAdmin);
  }
}

=== FILE: state.dfy ===
/**
 The server's in-memory state (the `db` object, the `wsClients` registry, the
 `activeCalls` table and each connection's bound user) as one immutable record,
 the events the server pushes to sockets, and the delivery helpers every
 handler shares.
 */
module Model {
  import opened Wrappers
  import OrderedMap

  type UserId = string
  /** Groups, private chats and group calls are keyed by the same kind of id. */
  type ChatId = string
  type CallId = string
  type MessageId = string
  type Token = string
  type SocketId = nat
  /** An opaque WebRTC payload (offer, answer or ICE candidate); never inspected. */
  type Signal = string

  /** The fields of a user record the core reads or writes. Missing numeric
      fields (`xp || 0`, `balance || 0`) are represented by 0. */
  datatype User = User(
    name: string,
    avatar: string,
    online: bool,
    lastActive: int,
    xp: int,
    level: int,
    balance: int)

  /** `admins` is absent on records that predate the field. */
  datatype Group = Group(name: string, ownerId: UserId, members: seq<UserId>, admins: Option<seq<UserId>>)

  datatype Chat = Chat(participants: seq<UserId>)

  /** What a client may attach to a message; each part may be absent. */
  datatype Payload = Payload(
    text: Option<string>,
    image: Option<string>,
    voice: Option<string>,
    replyTo: Option<MessageId>)

  datatype Message = Message(id: MessageId, from: UserId, payload: Payload, createdAt: int)

  datatype CallStatus = Ringing | Connected

  datatype Call = Call(id: CallId, from: UserId, to: UserId, status: CallStatus, startedAt: int)

  datatype GroupCall = GroupCall(id: CallId, groupId: ChatId, participants: seq<UserId>, startedAt: int)

  datatype RtcKind = Offer | Answer | Ice

  datatype CallErrorReason = UserNotFound | UserNotOnline | CallNotFound | GroupNotFound

  /** The server-originated frames, by their `type` tag. Member profile lists
      (`participants`) hold the ids of the participants whose user record
      exists, in roster order. */
  datatype Event =
    | InvalidToken
    | AuthSuccess(user: Option<User>)
    | UserOnline(userId: UserId)
    | UserOffline(userId: UserId)
    | NewMessage(chatId: ChatId, isGroup: bool, message: Message)
    | LevelUp(level: int, bonus: int)
    | CallError(reason: CallErrorReason)
    | CallStarted(callId: CallId)
    | IncomingCall(callId: CallId, caller: UserId, name: string, avatar: string)
    | CallAccepted(callId: CallId)
    | CallEnded(callId: CallId)
    | RtcRelay(kind: RtcKind, callId: CallId, sender: UserId, signal: Signal)
    | GroupCallStarted(groupId: ChatId, groupName: string, groupCallId: CallId, participants: seq<UserId>)
    | IncomingGroupCall(groupId: ChatId, groupName: string, groupCallId: CallId, participants: seq<UserId>)
    | GroupCallUpdated(groupId: ChatId, participants: seq<UserId>)
    | GroupCallEnded(groupId: ChatId, participants: seq<UserId>)
    | GroupRtcRelay(kind: RtcKind, target: UserId, origin: Option<UserId>, signal: Signal)

  /** `Reply` is written straight to the socket that sent the frame;
      `Push` goes through the registry to the socket bound to `to`. */
  datatype Outbound = Reply(ev: Event) | Push(to: UserId, ev: Event)

  datatype State = State(
    users: map<UserId, User>,
    sessions: map<Token, UserId>,
    groups: map<ChatId, Group>,
    chats: map<ChatId, Chat>,
    messages: map<ChatId, seq<Message>>,
    groupCalls: map<ChatId, GroupCall>,
    calls: OrderedMap.Entries<CallId, Call>,
    clients: OrderedMap.Entries<UserId, SocketId>,
    conns: map<SocketId, UserId>,
    // sockets whose `close` event has fired; each `ws` object is closed once
    // and never sees input again
    closed: set<SocketId>)

  /** A handler's effect: the next state and the frames it sends, in order. */
  datatype Transition = Transition(next: State, out: seq<Outbound>)

  /** `wsClients.has(u)`: the registry holds an entry for `u`, whether or not
      its socket is still open. */
  predicate Registered(st: State, u: UserId) {
    u in OrderedMap.Keys(st.clients)
  }

  /** The registry entries whose socket is still open, in registry order. A
      socket gets into the registry only through `auth`, which also binds it in
      `conns`; it leaves `conns` when it closes, and a closed socket takes no
      further input, so it is never bound again. An entry's socket is therefore
      open exactly when it is bound in `conns`. */
  function Live(clients: OrderedMap.Entries<UserId, SocketId>, conns: map<SocketId, UserId>): (r: OrderedMap.Entries<UserId, SocketId>)
    ensures forall e :: e in r <==> e in clients && e.1 in conns
  {
    if |clients| == 0 then []
    else (if clients[0].1 in conns then [clients[0]] else []) + Live(clients[1..], conns)
  }

  /** The open entries hold no key the registry lacks, and keep keys distinct. */
  lemma {:induction false} LiveKeys(clients: OrderedMap.Entries<UserId, SocketId>, conns: map<SocketId, UserId>)
    ensures OrderedMap.Keys(Live(clients, conns)) <= OrderedMap.Keys(clients)
    ensures OrderedMap.DistinctKeys(clients) ==> OrderedMap.DistinctKeys(Live(clients, conns))
  {
    if |clients| > 0 {
      var tail := clients[1..];
      LiveKeys(tail, conns);
      var rest := Live(tail, conns);
      assert OrderedMap.Keys(clients) == {clients[0].0} + OrderedMap.Keys(tail);
      if clients[0].1 in conns {
        var live := [clients[0]] + rest;
        assert Live(clients, conns) == live;
        assert live[1..] == rest;
        assert OrderedMap.Keys(live) == {clients[0].0} + OrderedMap.Keys(rest);
      } else {
        assert Live(clients, conns) == rest;
      }
    }
  }

  /** With distinct keys, an open entry for `u` is exactly what `sendTo`
      checks: `wsClients.get(u)` finds a socket and that socket is open. */
  lemma LiveIsGetThenOpen(clients: OrderedMap.Entries<UserId, SocketId>, conns: map<SocketId, UserId>, u: UserId)
    requires OrderedMap.DistinctKeys(clients)
    ensures u in OrderedMap.Keys(Live(clients, conns)) <==>
      OrderedMap.Get(clients, u).Some? && OrderedMap.Get(clients, u).value in conns
  {
    var live := Live(clients, conns);
    var g := OrderedMap.Get(clients, u);
    if u in OrderedMap.Keys(live) {
      var i :| 0 <= i < |live| && live[i].0 == u;
      assert live[i] in clients;
      var j :| 0 <= j < |clients| && clients[j] == live[i];
      assert g == Some(clients[j].1);
    }
    if g.Some? && g.value in conns {
      assert (u, g.value) in live;
      var i :| 0 <= i < |live| && live[i] == (u, g.value);
      assert live[i].0 in OrderedMap.Keys(live);
    }
  }

  /** A user is reachable when their registry entry holds an open socket: the
      `readyState === WebSocket.OPEN` test every delivery makes. */
  predicate Reachable(st: State, u: UserId) {
    u in OrderedMap.Keys(Live(st.clients, st.conns))
  }

  /** An open entry is an entry. */
  lemma ReachableIsRegistered(st: State, u: UserId)
    ensures Reachable(st, u) ==> Registered(st, u)
  {
    LiveKeys(st.clients, st.conns);
  }

  /** A conversation's message sequence; a missing entry is an empty history. */
  function History(st: State, c: ChatId): seq<Message> {
    if c in st.messages then st.messages[c] else []
  }

  /** No element occurs twice. */
  ghost predicate NoDup(s: seq<UserId>) {
    forall x :: multiset(s)[x] <= 1
  }

  /** `sendTo(u, ev)`: delivered only when `u` has an entry among `clients`;
      the handlers pass the open entries. */
  function SendTo(clients: OrderedMap.Entries<UserId, SocketId>, u: UserId, ev: Event): (out: seq<Outbound>)
    ensures u in OrderedMap.Keys(clients) <==> out == [Push(u, ev)]
    ensures u !in OrderedMap.Keys(clients) <==> out == []
  {
    if u in OrderedMap.Keys(clients) then [Push(u, ev)] else []
  }

  /** `broadcast(ev, exclude)`: every user with an entry among `clients` except
      `exclude`, in registry order. */
  function Broadcast(clients: OrderedMap.Entries<UserId, SocketId>, ev: Event, exclude: Option<UserId>): (out: seq<Outbound>)
    ensures forall o :: o in out ==> o.Push? && o.ev == ev && o.to in OrderedMap.Keys(clients) && Some(o.to) != exclude
    ensures forall u :: u in OrderedMap.Keys(clients) && Some(u) != exclude ==> Push(u, ev) in out
    ensures OrderedMap.DistinctKeys(clients) ==> forall u :: multiset(out)[Push(u, ev)] <= 1
  {
    if |clients| == 0 then []
    else
      var head := if Some(clients[0].0) != exclude then [Push(clients[0].0, ev)] else [];
      head + Broadcast(clients[1..], ev, exclude)
  }

  /** `sendTo(u, ev)` reaches `u` exactly as often as `broadcast(ev)` with no
      exclusion does: once when `u` has an entry, never otherwise. */
  lemma SendToAgreesWithBroadcast(clients: OrderedMap.Entries<UserId, SocketId>, u: UserId, ev: Event)
    requires OrderedMap.DistinctKeys(clients)
    ensures multiset(Broadcast(clients, ev, None))[Push(u, ev)] == |SendTo(clients, u, ev)|
  {
    var out := Broadcast(clients, ev, None);
    if u in OrderedMap.Keys(clients) {
      assert Push(u, ev) in out;
    } else {
      assert Push(u, ev) !in out;
    }
  }

  /** The per-member loop `members.forEach(m => if open, send ev)`. */
  function Notify(clients: OrderedMap.Entries<UserId, SocketId>, members: seq<UserId>, ev: Event): (out: seq<Outbound>)
    ensures forall o :: o in out ==> o.Push? && o.ev == ev && o.to in members && o.to in OrderedMap.Keys(clients)
    ensures forall m :: multiset(out)[Push(m, ev)] == if m in OrderedMap.Keys(clients) then multiset(members)[m] else 0
  {
    if |members| == 0 then []
    else
      assert members == [members[0]] + members[1..];
      SendTo(clients, members[0], ev) + Notify(clients, members[1..], ev)
  }

  /** `participants.map(id => safeUser(users[id])).filter(Boolean)`: the
      participants that still have a user record, in roster order. */
  function RosterView(users: map<UserId, User>, ps: seq<UserId>): (r: seq<UserId>)
    ensures forall p :: p in r <==> p in ps && p in users
    ensures |r| <= |ps|
  {
    if |ps| == 0 then []
    else (if ps[0] in users then [ps[0]] else []) + RosterView(users, ps[1..])
  }

  /** `ps.filter(id => id !== u)`. */
  function Without(ps: seq<UserId>, u: UserId): (r: seq<UserId>)
    ensures multiset(r) == multiset(ps)[u := 0]
    ensures forall p :: p in r <==> p in ps && p != u
    ensures u !in ps ==> r == ps
  {
    if |ps| == 0 then []
    else
      assert ps == [ps[0]] + ps[1..];
      (if ps[0] == u then [] else [ps[0]]) + Without(ps[1..], u)
  }

  /** Removing a user who was just appended restores the list. */
  lemma {:induction false} WithoutAppended(ps: seq<UserId>, u: UserId)
    requires u !in ps
    ensures Without(ps + [u], u) == ps
  {
    var qs := ps + [u];
    if |ps| == 0 {
      assert qs == [u];
    } else {
      assert qs[0] == ps[0] != u;
      assert qs[1..] == ps[1..] + [u];
      WithoutAppended(ps[1..], u);
      assert Without(qs, u) == [ps[0]] + Without(qs[1..], u);
      assert ps == [ps[0]] + ps[1..];
    }
  }
}

=== FILE: wrappers.dfy ===
/** Optional values, for JavaScript's `undefined` / `null`. */
module Wrappers {

  datatype Option<+T> = None | Some(value: T)
}
